=== FILE: README.md ===
# catalog-arcgis, modelled in Dafny

This project models the core of `catalog-arcgis`, a catalog connector that lets a data
platform browse an ArcGIS REST services directory and import its layers as GeoJSON. The
model has four parts:

- **Catalog listing** (`list`). Given the catalog base URL and the folder being browsed, it
  fetches that URL's JSON descriptor. It lists the children in four groups: folder names,
  `FeatureServer`/`MapServer` services, group and top-level feature layers, and sub-layers.
  It also builds the breadcrumb path from the URL.
- **Resource extraction** (`getResource`, `getMetaData`, `downloadResource`).
  - It checks a layer's metadata type and builds the resource record.
  - It sanitises the title into a file name.
  - It downloads the layer's features page by page, 1000 records per page, until a page is
    no longer truncated.
  - It assembles the pages into one document: the template, the first `type` and all the
    features.
- **Service enumeration** (`listServices`, `listServicesInFolder`). It walks the folder tree
  in pre-order and collects every service.
- **Dataset catalogue** (`listDatasets`, `getDataset`). Every `MapServer` service with layers
  becomes a dataset whose resources are its non-group layers. A dataset is looked up by id.

Every fetch is an input:

- **The directory** is a finite map from URL to descriptor (`ArcGis.Remote`). A URL missing
  from the map is a fetch that fails.
- **Layer metadata** is a map from metadata URL to JSON object.
- **The download's pages** are a sequence. `pages[k]` answers the k-th page query, and a
  query past the end of the sequence is a failed request.
- **The file write** is a boolean saying whether it succeeds.

JSON values are an algebraic datatype. A key holding `undefined` is absent from its object.

JavaScript semantics the code relies on are written out explicitly:

- in `Strings`:
  - `split` and `join`;
  - first-occurrence `indexOf`;
  - `lastIndexOf`;
  - the clamping and swapping `substring`;
  - the `\s` class;
  - the rendering of integers;
- in `Download`: the rendering of values in template literals;
- in `JsonValues`: truthiness.

Modules, one per file:

| module | file | models |
|---|---|---|
| `Results`, `Sequences`, `Strings`, `JsonValues` | results.dfy, sequences.dfy, strings.dfy, json_values.dfy | option/result types, order-preserving list building, JavaScript string operations, JSON values and truthiness |
| `ArcGis`, `Catalog` | arcgis.dfy, catalog.dfy | upstream descriptors, the remote directory, the host catalog's node type |
| `Listing`, `Breadcrumb`, `ListingExamples` | listing.dfy, breadcrumb.dfy, listing_examples.dfy | lib/imports.ts |
| `ServiceTree` | service_tree.dfy | lib/utils.ts |
| `Datasets` | datasets.dfy | index.ts |
| `Download` | download.dfy | lib/download.ts |

Behaviour of the code worth noting:

- **Sub-layer nodes** carry no `origin` and no `filePath` key. Only top-level layer resources
  do.
- **The template** is the first page with `features` emptied, but only when that first page
  is also the last. `resultOffset` is compared with 0 after it has already been advanced.
  When the first page is truncated, the template stays `{}` and every other key of the first
  page is lost.
- **The final `type`** is the first truthy `type` over all pages, not necessarily the first
  page's.
- **A sub-layer's id** is the listed URL up to and including its last `/`, followed by the
  sub-layer id. This is not a replacement of the last segment when the URL has no `/`.
- **A breadcrumb entry's id** falls back to the URL's first characters when `/segment` does
  not occur in the URL, because `indexOf` then gives -1. One way to reach this is a base URL
  without a trailing `/`: a service without `url` then gets the id `base + name + '/' + type`,
  in which the name is glued to the base URL's last segment. Listing that id gives the entry
  titled with the service name an id that is a few leading characters of the URL, followed by
  `/` and the service type.
- **One failed fetch** anywhere in the folder tree aborts the whole service enumeration, and
  with it `listDatasets` and `getDataset`.

## Model

| member | source | states |
|---|---|---|
| Listing.TargetUrl | lib/imports.ts:37-40 | the listed URL is the current folder id when that is a non-empty string, and the catalog base URL otherwise |
| Listing.List | lib/imports.ts:34-125 | listing fails exactly when the listed URL's descriptor cannot be fetched, and then names that URL. Otherwise `count` equals the number of results, the results are the four groups of children, and the path is the breadcrumb path |
| Listing.ChildrenLayout | lib/imports.ts:45-100 | the children are the folder nodes (id `url/name`, title `name`), then the service nodes, then the layer nodes, then one sibling node per sub-layer. Each group keeps upstream order, and the count is the sum of the group sizes |
| Listing.ServiceNodesCharacterized | lib/imports.ts:55-66 | a node is a service child if and only if some service has type `FeatureServer` or `MapServer` and the node is the folder titled `name (type)` whose id is the service's `url`, or `base + name + '/' + type` when it has none |
| Listing.LayerResourcesAreTopLevel | lib/imports.ts:76-84 | a resource is a layer child if and only if it comes from a `Feature Layer` or `Annotation Layer` whose `parentLayerId` is -1, with id and origin both `url/id` and title `name - id` |
| Listing.LayerFoldersAreGroups | lib/imports.ts:70-75 | a folder is a layer child if and only if it comes from a `Group Layer`, with id `url/id` and title `name - id` |
| Listing.NestedLayerNotListed | lib/imports.ts:76 | when layer ids are unique, no resource among the layer children carries the URL of a layer whose `parentLayerId` is not -1 |
| Listing.SiblingPrefix | lib/imports.ts:94 | the sub-layer prefix is the longest prefix of the URL that ends in `/`: it is empty or ends in `/`, and no `/` follows it |
| Listing.SubLayerIsSibling | lib/imports.ts:91-100 | below `parent/segment`, a sub-layer's id is `parent/` followed by the sub-layer id, so sub-layers are siblings of the listed layer |
| Breadcrumb.Segments | lib/imports.ts:103 | the URL remainder after the base URL splits into at least one segment |
| Breadcrumb.EntryIdCases | lib/imports.ts:113 | an entry's id is the URL up to the first occurrence of `/segment`, followed by the segment, with no earlier occurrence, even when that occurrence lies inside the base URL. When `/segment` occurs nowhere, the id is as many leading characters of the URL as the segment has, or the whole URL when it is shorter |
| Breadcrumb.ExtendLast | lib/imports.ts:105-110 | extending the path changes only the last entry, whose id gains the suffix; an empty path stays empty |
| Breadcrumb.FoldIsEntries | lib/imports.ts:102-118 | the push/pop fold over the segments equals the reference description: one entry per non-empty, non-service-type segment, whose id is followed by the `/type` of the service-type segments right after it. Leading service-type segments extend the path's last entry, or nothing when the path is empty |
| Breadcrumb.EntriesShape | lib/imports.ts:104-117 | the path entries are folders whose titles are exactly the non-empty, non-service-type segments in order, so no entry is a bare `FeatureServer` or `MapServer` |
| Breadcrumb.MarkerMergesIntoEntry | lib/imports.ts:105-110 | a segment followed by a service-type segment gives one entry whose id ends in `/` plus that service type |
| Breadcrumb.Path | lib/imports.ts:102-118 | the breadcrumb path equals the reference entries; its titles are the entry segments, and its length is their number |
| ListingExamples.RootListing | test-it/test-imports.ts:24-45 | at the catalog root, two folders and two services give four children in order and an empty path |
| ListingExamples.SubLayerListing | test-it/test-imports.ts:48-66 | listing `…/test-1/FeatureServer/1` with one sub-layer gives the sibling resource `…/test-1/FeatureServer/0` and the path titles `test-1`, `1` |
| ListingExamples.FolderListing | test-it/test-imports.ts:69-91 | listing `…/folder1` gives its one sub-folder and a one-entry path |
| Strings.JoinSplit | lib/imports.ts:103 | joining the parts of a split with the separator gives back the string |
| Strings.SplitJoin | lib/imports.ts:103 | splitting a join of separator-free parts gives back the parts |
| Strings.IndexOf | lib/imports.ts:113 | `indexOf` returns an index where the pattern occurs and has no earlier occurrence, or -1 when there is no occurrence |
| Strings.LastIndexOf | lib/imports.ts:94 | `lastIndexOf` returns an index holding the character with none after it, or -1 |
| Strings.Substring | lib/imports.ts:113 | `substring` is the slice between the two bounds once they are clamped into the string and swapped when reversed |
| Strings.IntToStringInjective | lib/imports.ts:72-73 | different layer ids render to different strings |
| Strings.NatToStringRoundTrip | lib/download.ts:83-84 | reading back the decimal rendering of a number gives the number |
| ServiceTree.InFolder | lib/utils.ts:24-36 | collecting a folder fails when the folder cannot be fetched; otherwise the folder's own services come first. The exact failure condition is `ServiceTree.InFolderSucceeds` |
| ServiceTree.ListServices | lib/utils.ts:12-22 | enumeration fails when the root cannot be fetched; otherwise the root's own services come first. The exact failure condition is `ServiceTree.ListServicesSucceeds` |
| ServiceTree.InFolderMembership | lib/utils.ts:24-36 | a service is collected under a folder if and only if a folder reachable from it (each step a listed sub-folder, at URL `baseUrl + path`) lists it |
| ServiceTree.ListServicesMembership | lib/utils.ts:12-22 | a service is enumerated if and only if the root lists it or a folder reachable from one of the root's folders does |
| ServiceTree.InFolderSucceeds | lib/utils.ts:24-36 | collecting under a folder succeeds if and only if every folder it asks for can be fetched: the folder itself and each sub-folder listed by a fetched folder on the way down. One failed fetch anywhere aborts the collection |
| ServiceTree.ListServicesSucceeds | lib/utils.ts:12-36 | the enumeration succeeds if and only if the root can be fetched and so can every folder asked for below each top-level folder |
| ServiceTree.InFolderIsVisitGather | lib/utils.ts:27-33 | collection is a pre-order visit of the folders (a folder before its sub-folders, sub-folders in listed order) followed by gathering each visited folder's own services; it fails exactly when the visit does |
| ServiceTree.InFolderCount | lib/utils.ts:24-36 | the number of collected services is the total over all visited folders |
| ServiceTree.ListServicesCount | lib/utils.ts:12-22 | the enumeration is the root's services and then those of the pre-order visit of the top-level folders, and its length is the total over all visited folders |
| Datasets.ResourceTitle | index.ts:31-39 | a layer is titled `parent - name` when its `parentLayerId` is not -1 and some layer has that id, the parent being the first such layer. Otherwise it keeps its name: when `parentLayerId` is absent or -1, or no layer has that id |
| Datasets.DatasetOf | index.ts:19-50 | a service yields a dataset exactly when its `layers` is non-empty. The dataset's id is the service name, its title `name (type)`, its origin the service URL, and it has no description. Its resources are the descriptor's layer resources (`Datasets.LayerResources`): a resource belongs to it if and only if it comes from a non-group layer, one per such layer in layer order |
| Datasets.CollectDatasets | index.ts:13-52 | cataloguing succeeds exactly when every `MapServer` service can be fetched; no dataset has an empty origin |
| Datasets.CollectDatasetsInOrder | index.ts:13-52 | the datasets are the contributions of the `MapServer` services, in service order |
| Datasets.CollectDatasetsMembership | index.ts:13-52 | a dataset is listed if and only if a fetched `MapServer` service with layers yields it |
| Datasets.ResourcesAreNonGroupLayers | index.ts:27-47 | a resource is among a service's layer resources (which `Datasets.DatasetOf` makes a dataset's resources) if and only if it comes from a non-group layer, with id `service-layerId`, the query URL and format `geojson`; their number is the number of non-group layers |
| Datasets.ListDatasets | index.ts:9-58 | listing fails exactly when the enumeration or a `MapServer` fetch fails; `count` equals the number of datasets |
| Datasets.ListDatasetsMembership | index.ts:9-58 | a dataset is listed if and only if an enumerated, fetched `MapServer` service with layers yields it |
| Datasets.GetDataset | index.ts:60-67 | the lookup returns nothing exactly when no listed dataset has the id; otherwise it returns the first one, completed with the service descriptor's description |
| Datasets.OriginFetched | index.ts:63-64 | a listed dataset's origin is a URL whose descriptor was fetched |
| Sequences.FindFirst | index.ts:35 | `find` returns the first element satisfying the predicate, or nothing when none does |
| Sequences.FilterMapMembership | lib/imports.ts:55-66 | a filtered list holds exactly the images of the kept inputs |
| Sequences.FilterMapSingle | lib/imports.ts:55-66 | one input yields its image when kept and nothing otherwise |
| Sequences.FilterMapAppend | lib/imports.ts:55-66 | filtering a concatenation is the concatenation of the filtered parts, so outputs keep the inputs' order |
| Download.GetMetaData | lib/download.ts:36-54 | the metadata step fails when the metadata cannot be fetched, or when its `type` is neither `Feature Layer` nor `Annotation Layer`, and then names the received type. Otherwise the record has id and origin `resourceId`, title `name-id`, format `geojson`, no file yet, and the description |
| Download.UnsupportedMessageNamesType | lib/download.ts:43 | the rejection message contains the received type |
| Download.SafeFileName | lib/download.ts:68 | the file name is the title with every whitespace character and `/` replaced by `_`, followed by `.geojson`; it is 8 characters longer, and no unsafe character is left before the suffix |
| Download.SanitizeIdempotent | lib/download.ts:68 | sanitising is idempotent and keeps safe names unchanged |
| Download.PageQueriesAt | lib/download.ts:79-85 | the k-th page query asks for 1000 records from offset 1000·k |
| Download.PageQueryParams | lib/download.ts:79-85 | the k-th page query sends `where=1=1`, `f=geojson`, `outFields=*`, then `resultOffset` as the decimal rendering of 1000·k, which reads back as 1000·k, and `resultRecordCount=1000` |
| Download.FirstTypeIsFirst | lib/download.ts:91-93 | the document's `type` is that of the first page with a truthy `type`, and it is absent when no page has one |
| Download.FinalDocumentShape | lib/download.ts:111 | the document holds all the gathered features and the type exactly when one was seen; its other keys are the template's, except `type` |
| Download.CompletesUnique | lib/download.ts:98-103 | at most one page count ends a download: a truncated page is never the last |
| Download.CompletesOrFails | lib/download.ts:86-89 | a download that meets a missing or non-200 answer before an untruncated page never completes |
| Download.Paginate | lib/download.ts:70-108 | the k-th query asks for offset 1000·k. On success the pages up to the last answered 200, all but the last were truncated, and the gathered state is the features of all those pages, the first truthy type and the template. Otherwise the loop stopped at the first missing or non-200 answer |
| Download.DownloadResource | lib/download.ts:64-120 | the download succeeds exactly when the pages complete and the write succeeds, and then saves the assembled document under `tmpDir` with the safe file name. Every failure is the one generic download error |
| Download.GetResource | lib/download.ts:19-23 | a metadata failure stops before any page query. Otherwise the record gets the path of the file named after its title, and the content is the assembled document |
| Download.SinglePageEcho | lib/download.ts:104-111 | a one-page download writes back exactly that page if and only if the page has a `features` array and either no `type` or a truthy one |
| Download.MultiPageKeys | lib/download.ts:104-111 | a download of two or more pages has only `type` and `features` keys |
| Download.TwoPageDownload | lib/download.ts:94-111 | a truncated page of 1000 features followed by a final page of 42 gives one document with the 1042 features in order |
| Download.AcceptedLayerExample | test-it/test-download.ts:40-72 | a `Feature Layer` named `Equipement` with id `1` gives the record titled `Equipement-1`, saved as `Equipement-1.geojson` |
| Download.RejectedLayerExample | test-it/test-download.ts:78-101 | a `Map Service` is rejected with the message naming `Map Service` |

## Left out

- The five-minute `memoize` cache around fetches: fetches are pure inputs, so a repeated fetch
  of a URL returns the same descriptor.
- The cache-aliasing quirk in lib/utils.ts:14,18: `push` mutates the services array held by
  the cache. The model builds fresh sequences, so it does not reproduce the duplicated
  services this produces. This happens across calls, and also within one enumeration when the
  same folder URL is reached twice. For example, a top-level folder `a/b` next to a folder `a`
  that lists `b`.
- axios and `URLSearchParams`: no encoding of URLs or parameters. `Download.Params` lists the
  parameters in order, and `Download.PageQueryParams` gives them for each page query.
- Transport failures are not distinguished by cause. The error thrown for a metadata fetch
  that fails is the transport library's own, so `Download.Message` gives no text for it.
- `fs.writeFileSync` becomes the `writable` input.
- `path.join` is kept abstract as `InDir(dir, name)`, so its normalisation (for example
  dropping `./`) is not modelled.
- `JSON.stringify`: the written document is modelled as a JSON object. Its byte form and key
  order are not modelled.
- Debug and console logging.
- lib/prepare.ts (a reachability ping), types/arcgis.ts (declarations only) and the plugin
  record, metadata and config schema in index.ts are not part of this model.
- `listDatasets`'s `params.q` is not modelled: the code ignores it.
- Floating-point numbers: JSON numbers are integers. Layer ids and offsets render with
  integer rendering, without the exponent form JavaScript uses from 1e21.
- Strings are sequences of Unicode scalar values, not UTF-16 code units. `length`, `indexOf`
  and `substring` therefore differ for characters outside the Basic Multilingual Plane.
- Descriptor fields with the wrong JSON type are read as absent. This covers a non-array
  `folders`, `services`, `layers` or `subLayers`, and a body that is not an object. The
  source would instead iterate a string `layers` in index.ts:26-27 or throw on a non-object
  body.
- Download.Paginate: a server that sets `exceededTransferLimit` on every page makes the
  source loop forever. With a finite page sequence the model instead fails with a request
  past the last page.

=== FILE: arcgis.dfy ===
/**
 * The ArcGIS REST services directory as the connector reads it: the JSON descriptors
 * returned for a folder, a service or a layer URL, and the remote directory itself as
 * a finite map from URL to descriptor.
 */
module ArcGis {
  import opened Results

  /** An entry of a folder's `services` array. `url` is absent in most directories. */
  datatype Service = Service(name: string, kind: string, url: Option<string>)

  /** An entry of a service's `layers` array. `parentLayerId` is -1 for a top-level layer
      and absent when the upstream omits it. */
  datatype Layer = Layer(id: int, name: string, kind: string, parentLayerId: Option<int>)

  /** An entry of a layer's `subLayers` array; its id is kept as the text it renders to. */
  datatype SubLayer = SubLayer(id: string, name: string)

  /**
   * The fields of a descriptor the connector reads. Each array field is `None` when the
   * key is missing or does not hold an array, `description` when the key is missing; any
   * other key (`tables`, `currentVersion`, ...) is ignored and therefore not represented.
   */
  datatype Descriptor = Descriptor(
    folders: Option<seq<string>>,
    services: Option<seq<Service>>,
    layers: Option<seq<Layer>>,
    subLayers: Option<seq<SubLayer>>,
    description: Option<string>)

  /** The directory: what a `?f=json` GET on each URL returns. A URL outside the map is one
      whose fetch fails (unreachable, non-success status, unparsable body). */
  type Remote = map<string, Descriptor>

  const FeatureServer: string := "FeatureServer"
  const MapServer: string := "MapServer"
  const GroupLayer: string := "Group Layer"
  const FeatureLayer: string := "Feature Layer"
  const AnnotationLayer: string := "Annotation Layer"

  /** The service types the connector browses into; also the URL segments naming a service. */
  predicate IsServiceMarker(s: string)
  {
    s == FeatureServer || s == MapServer
  }

  /** The layer types that hold downloadable features. */
  predicate IsFeatureKind(kind: string)
  {
    kind == FeatureLayer || kind == AnnotationLayer
  }
}

=== FILE: breadcrumb.dfy ===
/**
 * The breadcrumb path of a listing: the part of the listed URL after the catalog's base
 * URL is split on `/`; each non-empty segment becomes a folder entry, except a service
 * type segment (`FeatureServer`, `MapServer`), which is glued onto the previous entry.
 *
 * `Path` follows the source's fold (push, or pop-extend-push); `Entries` is an
 * independent segment-by-segment description of the same path, and `FoldIsEntries`
 * connects the two.
 */
module Breadcrumb {
  import opened Strings
  import opened ArcGis
  import opened Catalog

  /** A segment that yields its own path entry. */
  predicate IsEntrySegment(elt: string)
  {
    elt != "" && !IsServiceMarker(elt)
  }

  /** The id of the entry for segment `elt`: `url` cut just after the FIRST occurrence of
      `'/' + elt` (`url.substring(0, url.indexOf('/' + elt) + elt.length + 1)`). */
  function EntryId(url: string, elt: string): string
  {
    Substring(url, 0, IndexOf(url, "/" + elt) + |elt| + 1)
  }

  /** The entry id is the URL up to the first occurrence of `'/' + elt`, then `elt`, even
      when that occurrence lies inside the base URL. When `'/' + elt` does not occur at all
      (`indexOf` gives -1), the id is the first `|elt|` characters of the URL, or the whole
      URL when it is shorter. */
  lemma EntryIdCases(url: string, elt: string)
    ensures var k := IndexOf(url, "/" + elt);
            k >= 0 ==> EntryId(url, elt) == url[..k + 1] + elt
                       && forall j :: 0 <= j < k ==> !OccursAt(url, "/" + elt, j)
    ensures IndexOf(url, "/" + elt) == -1 ==>
              EntryId(url, elt) == (if |elt| <= |url| then url[..|elt|] else url)
              && forall j :: 0 <= j ==> !OccursAt(url, "/" + elt, j)
  {
    var k := IndexOf(url, "/" + elt);
    if k >= 0 {
      assert url[k..k + |elt| + 1] == "/" + elt;
      assert url[k + 1..k + |elt| + 1] == elt;
      assert url[..k + |elt| + 1] == url[..k + 1] + url[k + 1..k + |elt| + 1];
    }
  }

  /** The same node with `suffix` appended to its id (`lastElt.id += suffix`). */
  function AppendToId(n: Node, suffix: string): (r: Node)
    ensures r.id == n.id + suffix && r.title == n.title && r.Folder? == n.Folder?
  {
    match n
    case Folder(id, title) => Folder(id + suffix, title)
    case Resource(id, title, origin, format, filePath) => Resource(id + suffix, title, origin, format, filePath)
  }

  /** `path.pop()`, append `suffix` to the popped entry's id, push it back; nothing when empty. */
  function ExtendLast(path: seq<Node>, suffix: string): (r: seq<Node>)
    ensures |r| == |path|
    ensures |path| > 0 ==> (r[..|r| - 1] == path[..|path| - 1]
                            && r[|r| - 1] == AppendToId(path[|path| - 1], suffix))
  {
    if |path| == 0 then path
    else path[..|path| - 1] + [AppendToId(path[|path| - 1], suffix)]
  }

  /** One iteration of the source's `forEach` over the segments. */
  function Step(url: string, path: seq<Node>, elt: string): seq<Node>
  {
    if IsServiceMarker(elt) then ExtendLast(path, "/" + elt)
    else if elt != "" then path + [Folder(EntryId(url, elt), elt)]
    else path
  }

  function Fold(url: string, path: seq<Node>, elts: seq<string>): seq<Node>
    decreases |elts|
  {
    if |elts| == 0 then path else Fold(url, Step(url, path, elts[0]), elts[1..])
  }

  /** The segments of `url` after the first `|baseUrl|` characters (`url.substring(n).split('/')`). */
  function Segments(baseUrl: string, url: string): (elts: seq<string>)
    ensures |elts| >= 1
  {
    Split(SubstringFrom(url, |baseUrl|), '/')
  }

  // ---------------------------------------------------------------------------
  // Reference description

  /** The `/marker` suffixes owed to the entry just before `elts`: the service type segments
      up to the next entry segment, empty segments contributing nothing. */
  function Trailer(elts: seq<string>): string
  {
    if |elts| == 0 || IsEntrySegment(elts[0]) then ""
    else (if IsServiceMarker(elts[0]) then "/" + elts[0] else "") + Trailer(elts[1..])
  }

  /** One folder entry per entry segment, in order, whose id is the segment's `EntryId`
      followed by the service types that come right after it. */
  function Entries(url: string, elts: seq<string>): seq<Node>
  {
    if |elts| == 0 then []
    else if IsEntrySegment(elts[0]) then [Folder(EntryId(url, elts[0]) + Trailer(elts[1..]), elts[0])] + Entries(url, elts[1..])
    else Entries(url, elts[1..])
  }

  /** The entry segments of `elts`, in order. */
  function EntrySegments(elts: seq<string>): seq<string>
  {
    if |elts| == 0 then []
    else (if IsEntrySegment(elts[0]) then [elts[0]] else []) + EntrySegments(elts[1..])
  }

  lemma ExtendLastTwice(path: seq<Node>, a: string, b: string)
    ensures ExtendLast(ExtendLast(path, a), b) == ExtendLast(path, a + b)
  {
    if |path| > 0 {
      var last := path[|path| - 1];
      assert last.id + a + b == last.id + (a + b);
    }
  }

  /** Extending by the empty suffix changes nothing. */
  lemma ExtendLastEmpty(path: seq<Node>)
    ensures ExtendLast(path, "") == path
  {
    if |path| > 0 {
      assert AppendToId(path[|path| - 1], "") == path[|path| - 1];
      assert path[..|path| - 1] + [path[|path| - 1]] == path;
    }
  }

  /** The fold step for a service type segment: it extends the last entry, as the
      segment's part of the trailer does. */
  lemma FoldMarkerStep(url: string, path: seq<Node>, elts: seq<string>)
    requires |elts| > 0 && IsServiceMarker(elts[0])
    requires Fold(url, Step(url, path, elts[0]), elts[1..])
             == ExtendLast(Step(url, path, elts[0]), Trailer(elts[1..])) + Entries(url, elts[1..])
    ensures Fold(url, path, elts) == ExtendLast(path, Trailer(elts)) + Entries(url, elts)
  {
    MarkerSkipped(url, elts);
    ExtendLastTwice(path, "/" + elts[0], Trailer(elts[1..]));
  }

  /** The fold step for an entry segment: it pushes the entry that the rest's trailer
      then extends, and the path before it is extended by nothing. */
  lemma FoldEntryStep(url: string, path: seq<Node>, elts: seq<string>)
    requires |elts| > 0 && IsEntrySegment(elts[0])
    requires Fold(url, Step(url, path, elts[0]), elts[1..])
             == ExtendLast(Step(url, path, elts[0]), Trailer(elts[1..])) + Entries(url, elts[1..])
    ensures Fold(url, path, elts) == ExtendLast(path, Trailer(elts)) + Entries(url, elts)
  {
    var elt, rest := elts[0], elts[1..];
    var entry := Folder(EntryId(url, elt), elt);
    assert Step(url, path, elt) == path + [entry];
    var extended := ExtendLast(path + [entry], Trailer(rest));
    assert extended == path + [AppendToId(entry, Trailer(rest))];
    assert Trailer(elts) == "";
    ExtendLastEmpty(path);
  }

  /** The fold step for an empty segment: nothing happens. */
  lemma FoldEmptyStep(url: string, path: seq<Node>, elts: seq<string>)
    requires |elts| > 0 && elts[0] == ""
    requires Fold(url, Step(url, path, elts[0]), elts[1..])
             == ExtendLast(Step(url, path, elts[0]), Trailer(elts[1..])) + Entries(url, elts[1..])
    ensures Fold(url, path, elts) == ExtendLast(path, Trailer(elts)) + Entries(url, elts)
  {
    var rest := elts[1..];
    assert Step(url, path, elts[0]) == path;
    assert Fold(url, path, elts) == Fold(url, path, rest);
    assert Entries(url, elts) == Entries(url, rest);
    assert Trailer(elts) == "" + Trailer(rest);
    assert Trailer(elts) == Trailer(rest);
  }

  /** The fold, started from any path, extends the last entry with the leading trailer and
      then appends exactly the reference entries. */
  lemma {:induction false} FoldIsEntries(url: string, path: seq<Node>, elts: seq<string>)
    ensures Fold(url, path, elts) == ExtendLast(path, Trailer(elts)) + Entries(url, elts)
    decreases |elts|
  {
    if |elts| == 0 {
      ExtendLastEmpty(path);
    } else {
      FoldIsEntries(url, Step(url, path, elts[0]), elts[1..]);
      if IsServiceMarker(elts[0]) {
        FoldMarkerStep(url, path, elts);
      } else if elts[0] != "" {
        FoldEntryStep(url, path, elts);
      } else {
        FoldEmptyStep(url, path, elts);
      }
    }
  }

  /** Every reference entry is a folder titled by an entry segment, and the titles are the
      entry segments in order. */
  lemma {:induction false} EntriesShape(url: string, elts: seq<string>)
    ensures Titles(Entries(url, elts)) == EntrySegments(elts)
    ensures forall i :: 0 <= i < |Entries(url, elts)| ==> Entries(url, elts)[i].Folder?
    ensures forall i :: 0 <= i < |Entries(url, elts)| ==> IsEntrySegment(Entries(url, elts)[i].title)
  {
    if |elts| > 0 {
      EntriesShape(url, elts[1..]);
      var tail := Entries(url, elts[1..]);
      if IsEntrySegment(elts[0]) {
        var e := Folder(EntryId(url, elts[0]) + Trailer(elts[1..]), elts[0]);
        assert Titles([e] + tail) == [e.title] + Titles(tail);
      }
    }
  }

  /** A service type segment contributes its `/type` to the trailer and no entry. */
  lemma MarkerSkipped(url: string, tail: seq<string>)
    requires |tail| >= 1 && IsServiceMarker(tail[0])
    ensures Trailer(tail) == "/" + tail[0] + Trailer(tail[1..])
    ensures Entries(url, tail) == Entries(url, tail[1..])
  {
    assert !IsEntrySegment(tail[0]);
  }

  /** An entry segment gives the entry that carries the following trailer. */
  lemma EntrySegmentHead(url: string, elts: seq<string>)
    requires |elts| >= 1 && IsEntrySegment(elts[0])
    ensures Entries(url, elts) == [Folder(EntryId(url, elts[0]) + Trailer(elts[1..]), elts[0])] + Entries(url, elts[1..])
  {
  }

  /** An entry segment directly followed by a service type segment gives ONE entry whose id
      ends with `/` and that service type: the reference entry for the pair. */
  lemma MarkerMergesIntoEntry(url: string, elts: seq<string>)
    requires |elts| >= 2 && IsEntrySegment(elts[0]) && IsServiceMarker(elts[1])
    ensures Entries(url, elts)
         == [Folder(EntryId(url, elts[0]) + "/" + elts[1] + Trailer(elts[2..]), elts[0])] + Entries(url, elts[2..])
  {
    var tail := elts[1..];
    assert tail[0] == elts[1] && tail[1..] == elts[2..];
    EntrySegmentHead(url, elts);
    MarkerSkipped(url, tail);
    var id, trailer := EntryId(url, elts[0]), Trailer(elts[2..]);
    assert id + ("/" + elts[1] + trailer) == id + "/" + elts[1] + trailer;
  }

  // ---------------------------------------------------------------------------
  // The path

  /** The breadcrumb path of `url` under the catalog rooted at `baseUrl`. */
  function Path(baseUrl: string, url: string): (path: seq<Node>)
    ensures path == Entries(url, Segments(baseUrl, url))
    ensures Titles(path) == EntrySegments(Segments(baseUrl, url))
    ensures |path| == |EntrySegments(Segments(baseUrl, url))|
    ensures forall i :: 0 <= i < |path| ==> path[i].Folder? && IsEntrySegment(path[i].title)
  {
    var elts := Segments(baseUrl, url);
    FoldIsEntries(url, [], elts);
    EntriesShape(url, elts);
    Fold(url, [], elts)
  }
}

=== FILE: catalog.dfy ===
/** The host catalog's node type: what `list` returns to the catalog abstraction. */
module Catalog {
  import opened Results

  /**
   * A catalog node. A folder's `id` is the URL to list next; a resource's `id` is the
   * URL handed to the extractor. `origin` and `filePath` are `None` when the node
   * object has no such key.
   */
  datatype Node =
    | Folder(id: string, title: string)
    | Resource(id: string, title: string, origin: Option<string>, format: string, filePath: Option<string>)

  /** The titles of a sequence of nodes, in order. */
  function Titles(nodes: seq<Node>): (ts: seq<string>)
    ensures |ts| == |nodes|
    ensures forall i :: 0 <= i < |nodes| ==> ts[i] == nodes[i].title
  {
    if |nodes| == 0 then [] else [nodes[0].title] + Titles(nodes[1..])
  }
}

=== FILE: datasets.dfy ===
/**
 * The dataset catalogue of the connector: every `MapServer` service found anywhere in the
 * directory tree becomes a dataset whose resources are the service's non-group layers,
 * each downloadable as a GeoJSON query; a dataset is looked up by its id.
 */
module Datasets {
  import opened Results
  import opened Strings
  import opened Sequences
  import opened ArcGis
  import ServiceTree

  /** A downloadable layer of a dataset. */
  datatype DatasetResource = DatasetResource(id: string, title: string, url: string, format: string, mimeType: string)

  /** A catalogued service. `description` is only filled in by a lookup. */
  datatype Dataset = Dataset(id: string, title: string, origin: string, resources: seq<DatasetResource>, description: Option<string>)

  /** What `listDatasets` returns. */
  datatype DatasetList = DatasetList(count: nat, results: seq<Dataset>)

  /** Why `listDatasets` throws: a folder or service descriptor could not be fetched. */
  datatype DatasetError = Unreachable

  /** The query appended to a layer URL to download all its features with a geometry. */
  const QuerySuffix: string := "/query?f=geojson&outFields=*&where=shape+is+not+null"
  const GeoJsonFormat: string := "geojson"
  const GeoJsonMimeType: string := "application/geo+json"

  /** A service's URL: base URL, name, `/`, type, with no separator after the base URL. */
  function ServiceUrl(baseUrl: string, s: Service): (u: string)
    ensures |u| > 0
  {
    baseUrl + s.name + "/" + s.kind
  }

  /** `layers.find(l => l.id === id)`. */
  function FindLayer(layers: seq<Layer>, id: int): Option<Layer>
  {
    FindFirst(layers, (l: Layer) => l.id == id)
  }

  /** A layer whose `parentLayerId` names another layer of the service is titled
      `parent - layer`; any other layer keeps its own name. */
  function ResourceTitle(layers: seq<Layer>, l: Layer): (t: string)
    ensures l.parentLayerId.None? || l.parentLayerId == Some(-1) ==> t == l.name
    ensures l.parentLayerId.Some? && l.parentLayerId.value != -1
            && (forall i :: 0 <= i < |layers| ==> layers[i].id != l.parentLayerId.value)
            ==> t == l.name
    ensures forall i :: 0 <= i < |layers| && Some(layers[i].id) == l.parentLayerId && layers[i].id != -1
                        && (forall j :: 0 <= j < i ==> layers[j].id != layers[i].id)
                        ==> t == layers[i].name + " - " + l.name
  {
    if l.parentLayerId.Some? && l.parentLayerId.value != -1 then
      match FindLayer(layers, l.parentLayerId.value)
      case Some(p) => p.name + " - " + l.name
      case None => l.name
    else l.name
  }

  /** The resource of a non-group layer `l` of service `s`. */
  function LayerResource(baseUrl: string, s: Service, layers: seq<Layer>, l: Layer): DatasetResource
  {
    DatasetResource(s.name + "-" + IntToString(l.id), ResourceTitle(layers, l),
                    ServiceUrl(baseUrl, s) + "/" + IntToString(l.id) + QuerySuffix,
                    GeoJsonFormat, GeoJsonMimeType)
  }

  /** Group layers are skipped; every other layer, whatever its type, is a resource. */
  function LayerResources(baseUrl: string, s: Service, layers: seq<Layer>): seq<DatasetResource>
  {
    FilterMap(layers, (l: Layer) => if l.kind == GroupLayer then None else Some(LayerResource(baseUrl, s, layers, l)))
  }

  /** The dataset of a `MapServer` service given its descriptor, or `None` when the
      descriptor has no layers (missing or empty `layers`). */
  function DatasetOf(baseUrl: string, s: Service, d: Descriptor): (r: Option<Dataset>)
    ensures r.Some? <==> |OrEmpty(d.layers)| > 0
    ensures r.Some? ==> r.value.id == s.name && r.value.origin == ServiceUrl(baseUrl, s)
    ensures r.Some? ==> r.value.title == s.name + " (" + s.kind + ")" && r.value.description.None?
    ensures r.Some? ==> r.value.resources == LayerResources(baseUrl, s, OrEmpty(d.layers))
    ensures r.Some? ==> forall res :: res in r.value.resources <==>
              exists i :: 0 <= i < |OrEmpty(d.layers)| && OrEmpty(d.layers)[i].kind != GroupLayer
                          && res == LayerResource(baseUrl, s, OrEmpty(d.layers), OrEmpty(d.layers)[i])
  {
    var layers := OrEmpty(d.layers);
    if |layers| > 0 then
      assert forall res :: res in LayerResources(baseUrl, s, layers) <==>
               exists i :: 0 <= i < |layers| && layers[i].kind != GroupLayer
                           && res == LayerResource(baseUrl, s, layers, layers[i]) by {
        forall res {
          ResourcesAreNonGroupLayers(baseUrl, s, layers, res);
        }
      }
      Some(Dataset(s.name, s.name + " (" + s.kind + ")", ServiceUrl(baseUrl, s),
                   LayerResources(baseUrl, s, layers), None))
    else None
  }

  /** Every `MapServer` service of `services` in turn: fetch its descriptor (a failure aborts
      the whole listing) and keep its dataset if it has one. Other services are skipped
      without a fetch. */
  function CollectDatasets(remote: Remote, baseUrl: string, services: seq<Service>): (r: Option<seq<Dataset>>)
    ensures r.Some? <==> forall i :: 0 <= i < |services| && services[i].kind == MapServer ==> ServiceUrl(baseUrl, services[i]) in remote
    ensures r.Some? ==> |r.value| <= |services|
    ensures r.Some? ==> forall k :: 0 <= k < |r.value| ==> r.value[k].origin != ""
  {
    if |services| == 0 then Some([])
    else
      var s := services[0];
      var rest := CollectDatasets(remote, baseUrl, services[1..]);
      assert forall i :: 1 <= i < |services| ==> services[i] == services[1..][i - 1];
      if s.kind != MapServer then rest
      else if ServiceUrl(baseUrl, s) !in remote then None
      else if rest.None? then None
      else
        match DatasetOf(baseUrl, s, remote[ServiceUrl(baseUrl, s)])
        case Some(ds) => Some([ds] + rest.value)
        case None => rest
  }

  /** `listDatasets`: enumerate the services of the whole tree, then catalogue the
      `MapServer` ones. */
  function ListDatasets(remote: Remote, baseUrl: string): (r: Result<DatasetList, DatasetError>)
    ensures r.Ok? <==> ServiceTree.ListServices(remote, baseUrl).Some?
                       && CollectDatasets(remote, baseUrl, ServiceTree.ListServices(remote, baseUrl).value).Some?
    ensures r.Ok? ==> r.value.count == |r.value.results|
    ensures r.Ok? ==> r.value.results == CollectDatasets(remote, baseUrl, ServiceTree.ListServices(remote, baseUrl).value).value
  {
    match ServiceTree.ListServices(remote, baseUrl)
    case None => Err(Unreachable)
    case Some(services) =>
      match CollectDatasets(remote, baseUrl, services)
      case None => Err(Unreachable)
      case Some(ds) => Ok(DatasetList(|ds|, ds))
  }

  /** `getDataset`: the first listed dataset with the requested id, completed with the
      `description` of its service descriptor; `None` when no dataset has that id. */
  function GetDataset(remote: Remote, baseUrl: string, datasetId: string): (r: Result<Option<Dataset>, DatasetError>)
    ensures r.Ok? <==> ListDatasets(remote, baseUrl).Ok?
    ensures r.Ok? ==> var list := ListDatasets(remote, baseUrl).value.results;
                      (r.value.None? <==> forall k :: 0 <= k < |list| ==> list[k].id != datasetId)
    ensures r.Ok? && r.value.Some? ==>
              var list := ListDatasets(remote, baseUrl).value.results;
              exists k :: 0 <= k < |list| && list[k].id == datasetId
                          && (forall j :: 0 <= j < k ==> list[j].id != datasetId)
                          && list[k].origin in remote && r.value.value == list[k].(description := remote[list[k].origin].description)
  {
    match ListDatasets(remote, baseUrl)
    case Err(e) => Err(e)
    case Ok(list) =>
      match FindFirst(list.results, (d: Dataset) => d.id == datasetId)
      case None => Ok(None)
      case Some(d) =>
        if d.origin == "" then Ok(None)
        else
          OriginFetched(remote, baseUrl, ServiceTree.ListServices(remote, baseUrl).value, d);
          Ok(Some(d.(description := remote[d.origin].description)))
  }

  // ---------------------------------------------------------------------------
  // Properties

  /** The dataset a service contributes when every fetch succeeds: only a fetched
      `MapServer` service with layers contributes one. */
  function Contribution(remote: Remote, baseUrl: string, s: Service): Option<Dataset>
  {
    if s.kind == MapServer && ServiceUrl(baseUrl, s) in remote then DatasetOf(baseUrl, s, remote[ServiceUrl(baseUrl, s)])
    else None
  }

  /** When the listing succeeds it is the services' contributions, in service order. */
  lemma {:induction false} CollectDatasetsInOrder(remote: Remote, baseUrl: string, services: seq<Service>)
    requires CollectDatasets(remote, baseUrl, services).Some?
    ensures CollectDatasets(remote, baseUrl, services).value == FilterMap(services, (s: Service) => Contribution(remote, baseUrl, s))
  {
    if |services| > 0 {
      assert forall i :: 1 <= i < |services| ==> services[i] == services[1..][i - 1];
      CollectDatasetsInOrder(remote, baseUrl, services[1..]);
    }
  }

  /** The datasets are exactly those of the `MapServer` services that have layers. */
  lemma CollectDatasetsMembership(remote: Remote, baseUrl: string, services: seq<Service>, d: Dataset)
    requires CollectDatasets(remote, baseUrl, services).Some?
    ensures d in CollectDatasets(remote, baseUrl, services).value <==>
            exists i :: 0 <= i < |services| && services[i].kind == MapServer
                        && ServiceUrl(baseUrl, services[i]) in remote
                        && DatasetOf(baseUrl, services[i], remote[ServiceUrl(baseUrl, services[i])]) == Some(d)
  {
    CollectDatasetsInOrder(remote, baseUrl, services);
    FilterMapMembership(services, (s: Service) => Contribution(remote, baseUrl, s), d);
  }

  /** A dataset's origin is the URL of a `MapServer` service whose descriptor was fetched. */
  lemma OriginFetched(remote: Remote, baseUrl: string, services: seq<Service>, d: Dataset)
    requires CollectDatasets(remote, baseUrl, services).Some?
    requires d in CollectDatasets(remote, baseUrl, services).value
    ensures d.origin in remote
  {
    CollectDatasetsMembership(remote, baseUrl, services, d);
  }

  /** A service's layer resources, which `DatasetOf` makes a dataset's resources, come from its
      non-group layers, one each (in layer order by `FilterMapAppend`). */
  lemma ResourcesAreNonGroupLayers(baseUrl: string, s: Service, layers: seq<Layer>, res: DatasetResource)
    ensures res in LayerResources(baseUrl, s, layers) <==>
            exists i :: 0 <= i < |layers| && layers[i].kind != GroupLayer
                        && res == LayerResource(baseUrl, s, layers, layers[i])
    ensures |LayerResources(baseUrl, s, layers)|
            == CountKept(layers, (l: Layer) => if l.kind == GroupLayer then None else Some(LayerResource(baseUrl, s, layers, l)))
  {
    var f := (l: Layer) => if l.kind == GroupLayer then None else Some(LayerResource(baseUrl, s, layers, l));
    FilterMapMembership(layers, f, res);
    FilterMapLength(layers, f);
  }

  /** Listed datasets are exactly those of the enumerated `MapServer` services that have
      layers (which services are enumerated is stated by `ServiceTree.ListServicesMembership`). */
  lemma ListDatasetsMembership(remote: Remote, baseUrl: string, d: Dataset)
    requires ListDatasets(remote, baseUrl).Ok?
    ensures var services := ServiceTree.ListServices(remote, baseUrl).value;
            d in ListDatasets(remote, baseUrl).value.results <==>
            exists i :: 0 <= i < |services| && services[i].kind == MapServer
                        && ServiceUrl(baseUrl, services[i]) in remote
                        && DatasetOf(baseUrl, services[i], remote[ServiceUrl(baseUrl, services[i])]) == Some(d)
  {
    CollectDatasetsMembership(remote, baseUrl, ServiceTree.ListServices(remote, baseUrl).value, d);
  }
}

=== FILE: download.dfy ===
/**
 * The resource extractor: it checks the metadata of a layer, builds the resource record,
 * downloads the layer's features page by page and assembles them into one GeoJSON
 * document saved under a sanitised file name.
 */
module Download {
  import opened Results
  import opened Strings
  import opened JsonValues
  import opened ArcGis

  // ---------------------------------------------------------------------------
  // Rendering values into template literals

  /** `${v}` for a JSON value: arrays render their elements joined by commas (`null`
      elements as nothing), objects as `[object Object]`. */
  function Render(v: Json): string
    decreases v, 1
  {
    match v
    case Null => "null"
    case Bool(b) => if b then "true" else "false"
    case Num(n) => IntToString(n)
    case Str(s) => s
    case Arr(items) => RenderItems(v, items)
    case Obj(_) => "[object Object]"
  }

  /** The elements of an array of `parent`, rendered and joined by commas. */
  function RenderItems(parent: Json, items: seq<Json>): string
    requires forall i :: 0 <= i < |items| ==> items[i] < parent
    decreases parent, 0, |items|
  {
    if |items| == 0 then ""
    else (if items[0].Null? then "" else Render(items[0])) + (if |items| == 1 then "" else "," + RenderItems(parent, items[1..]))
  }

  /** `obj.key`: the value, or `None` for `undefined`. */
  function Get(obj: Object, key: string): (r: Option<Json>)
    ensures r.Some? <==> key in obj
    ensures r.Some? ==> r.value == obj[key]
  {
    if key in obj then Some(obj[key]) else None
  }

  /** `${obj.key}`: an absent key renders as `undefined`. */
  function RenderField(obj: Object, key: string): string
  {
    match Get(obj, key)
    case Some(v) => Render(v)
    case None => "undefined"
  }

  // ---------------------------------------------------------------------------
  // Metadata

  /** Where the downloaded file goes: nowhere yet (the empty string set by the metadata
      step), or the file `name` joined onto the directory `dir`. */
  datatype FilePath = Unset | InDir(dir: string, name: string)

  /** The resource record handed back to the catalog. */
  datatype Resource = Resource(id: string, title: string, format: string, origin: string,
                               filePath: FilePath, description: Option<Json>)

  /** Why the extractor throws: the metadata could not be fetched, the layer type is not
      downloadable, or something failed during the download phase. */
  datatype Failure = MetadataUnavailable(url: string) | UnsupportedType(received: string) | DownloadFailed

  const UnsupportedTypePrefix: string :=
    "Les ressources ArcGIS pouvant \U{EA}tre import\U{E9}es doivent \U{EA}tre de type 'Feature Layer' ou 'AnnotationLayer' (type re\U{E7}u : "
  const DownloadFailedMessage: string := "Error pendant le t\U{E9}l\U{E9}chargement du fichier"

  /** The message of the thrown error; a metadata fetch failure carries the transport
      library's own error, which is not modelled. */
  function Message(f: Failure): Option<string>
  {
    match f
    case MetadataUnavailable(_) => None
    case UnsupportedType(received) => Some(UnsupportedTypePrefix + received + ")")
    case DownloadFailed => Some(DownloadFailedMessage)
  }

  /** The URL of a layer's metadata. */
  function MetadataUrl(resourceId: string): string
  {
    resourceId + "?f=json"
  }

  /** The metadata `type` is one of the two downloadable layer types. */
  predicate Downloadable(data: Object)
  {
    Get(data, "type") == Some(Str(FeatureLayer)) || Get(data, "type") == Some(Str(AnnotationLayer))
  }

  /** `getMetaData`: fetch the layer's metadata (from `infos`, keyed by URL; a missing URL is
      a failed fetch), check its type, build the record. */
  function GetMetaData(resourceId: string, infos: map<string, Object>): (r: Result<Resource, Failure>)
    ensures r.Err? <==> MetadataUrl(resourceId) !in infos || !Downloadable(infos[MetadataUrl(resourceId)])
    ensures MetadataUrl(resourceId) !in infos ==> r == Err(MetadataUnavailable(MetadataUrl(resourceId)))
    ensures MetadataUrl(resourceId) in infos && r.Err? ==>
              var data := infos[MetadataUrl(resourceId)];
              r.error == UnsupportedType(RenderField(data, "type"))
              && (Get(data, "type").Some? && data["type"].Str? ==> r.error.received == data["type"].s)
    ensures r.Ok? ==>
              var data := infos[MetadataUrl(resourceId)];
              && r.value.id == resourceId && r.value.origin == resourceId
              && r.value.format == "geojson" && r.value.filePath == Unset
              && r.value.title == RenderField(data, "name") + "-" + RenderField(data, "id")
              && r.value.description == Get(data, "description")
  {
    var url := MetadataUrl(resourceId);
    if url !in infos then Err(MetadataUnavailable(url))
    else
      var data := infos[url];
      if !Downloadable(data) then Err(UnsupportedType(RenderField(data, "type")))
      else Ok(Resource(resourceId, RenderField(data, "name") + "-" + RenderField(data, "id"),
                       "geojson", resourceId, Unset, Get(data, "description")))
  }

  /** The message of a type rejection names the type received. */
  lemma UnsupportedMessageNamesType(received: string)
    ensures var m := Message(UnsupportedType(received)).value;
            OccursAt(m, received, |UnsupportedTypePrefix|) && m[|m| - 1] == ')'
  {
    var m := Message(UnsupportedType(received)).value;
    assert m[|UnsupportedTypePrefix|..|UnsupportedTypePrefix| + |received|] == received;
  }

  // ---------------------------------------------------------------------------
  // File name

  /** The characters the file name may not keep: whitespace and `/`. */
  predicate Unsafe(c: char)
  {
    IsWhitespace(c) || c == '/'
  }

  /** Every unsafe character replaced by `_`. */
  function Sanitize(name: string): (r: string)
    ensures |r| == |name|
    ensures forall i :: 0 <= i < |name| ==> r[i] == (if Unsafe(name[i]) then '_' else name[i])
  {
    if |name| == 0 then "" else [if Unsafe(name[0]) then '_' else name[0]] + Sanitize(name[1..])
  }

  /** The saved file's name: the title with whitespace and `/` replaced by `_`, then `.geojson`. */
  function SafeFileName(title: string): (r: string)
    ensures |r| == |title| + 8
    ensures r[|title|..] == ".geojson"
    ensures forall i :: 0 <= i < |title| ==> !Unsafe(r[i])
    ensures forall i :: 0 <= i < |title| && !Unsafe(title[i]) ==> r[i] == title[i]
    ensures forall i :: 0 <= i < |title| && Unsafe(title[i]) ==> r[i] == '_'
  {
    Sanitize(title) + ".geojson"
  }

  /** Sanitising twice changes nothing more, and a safe name is kept as it is. */
  lemma {:induction false} SanitizeIdempotent(name: string)
    ensures Sanitize(Sanitize(name)) == Sanitize(name)
    ensures (forall i :: 0 <= i < |name| ==> !Unsafe(name[i])) ==> Sanitize(name) == name
  {
    if |name| > 0 {
      SanitizeIdempotent(name[1..]);
    }
  }

  // ---------------------------------------------------------------------------
  // Pages

  /** The records per page asked for. */
  const PageSize: nat := 1000

  /** An answer to one page query: its HTTP status and its parsed body. */
  datatype Response = Response(status: int, body: Object)

  /** A page request: the query URL and the record window it asks for. */
  datatype Query = Query(url: string, resultOffset: nat, resultRecordCount: nat)

  /** The query for the page starting at record `offset`. */
  function PageQuery(resourceId: string, offset: nat): Query
  {
    Query(resourceId + "/query", offset, PageSize)
  }

  /** The URL parameters a query sends, in order. */
  function Params(q: Query): seq<(string, string)>
  {
    [("where", "1=1"), ("f", "geojson"), ("outFields", "*"),
     ("resultOffset", NatToString(q.resultOffset)), ("resultRecordCount", NatToString(q.resultRecordCount))]
  }

  /** The queries for the first `n` pages, at offsets 0, 1000, 2000, ... */
  function PageQueries(resourceId: string, n: nat): (qs: seq<Query>)
    ensures |qs| == n
  {
    if n == 0 then [] else PageQueries(resourceId, n - 1) + [PageQuery(resourceId, PageSize * (n - 1))]
  }

  /** The `i`-th query asks for the page starting at record `1000 * i`. */
  lemma {:induction false} PageQueriesAt(resourceId: string, n: nat)
    ensures forall i :: 0 <= i < n ==> PageQueries(resourceId, n)[i] == PageQuery(resourceId, PageSize * i)
  {
    if n > 0 {
      PageQueriesAt(resourceId, n - 1);
    }
  }

  /** The `k`-th page query sends the fixed parameters, then the offset `1000 * k` and the
      page size, both in decimal, and the offset reads back as `1000 * k`. */
  lemma PageQueryParams(resourceId: string, n: nat, k: nat)
    requires k < n
    ensures Params(PageQueries(resourceId, n)[k])
            == [("where", "1=1"), ("f", "geojson"), ("outFields", "*"),
                ("resultOffset", NatToString(PageSize * k)), ("resultRecordCount", "1000")]
    ensures ParseDigits(Params(PageQueries(resourceId, n)[k])[3].1) == PageSize * k
  {
    PageQueriesAt(resourceId, n);
    assert NatToString(1) == "1";
    assert NatToString(10) == "10";
    assert NatToString(100) == "100";
    assert NatToString(1000) == "1000";
    NatToStringRoundTrip(PageSize * k);
  }

  /** The features a page contributes: its `features` array, or none when it has no array. */
  function FeaturesOf(body: Object): seq<Json>
  {
    if "features" in body && body["features"].Arr? then body["features"].items else []
  }

  /** The server announces more records after this page. */
  predicate Truncated(body: Object)
  {
    TruthyAt(body, "exceededTransferLimit")
  }

  /** The features of the pages, in page order. */
  function AllFeatures(ps: seq<Response>): (fs: seq<Json>)
    ensures |ps| == 1 ==> fs == FeaturesOf(ps[0].body)
  {
    if |ps| == 0 then [] else AllFeatures(ps[..|ps| - 1]) + FeaturesOf(ps[|ps| - 1].body)
  }

  /** The first truthy `type` among the pages. */
  function FirstType(ps: seq<Response>): Option<Json>
  {
    if |ps| == 0 then None
    else
      match FirstType(ps[..|ps| - 1])
      case Some(t) => Some(t)
      case None =>
        var last := ps[|ps| - 1].body;
        if TruthyAt(last, "type") then Some(last["type"]) else None
  }

  /** `FirstType` is the `type` of the first page that has a truthy one, and `None` exactly
      when no page has one. */
  lemma {:induction false} FirstTypeIsFirst(ps: seq<Response>)
    ensures FirstType(ps).None? <==> forall i :: 0 <= i < |ps| ==> !TruthyAt(ps[i].body, "type")
    ensures FirstType(ps).Some? ==>
              exists i :: 0 <= i < |ps| && TruthyAt(ps[i].body, "type") && FirstType(ps).value == ps[i].body["type"]
                          && forall j :: 0 <= j < i ==> !TruthyAt(ps[j].body, "type")
  {
    if |ps| > 0 {
      var init := ps[..|ps| - 1];
      assert forall i :: 0 <= i < |init| ==> init[i] == ps[i];
      FirstTypeIsFirst(init);
    }
  }

  /** `{...body, features: []}`. */
  function TemplateOf(body: Object): Object
  {
    body["features" := Arr([])]
  }

  /** The first page with its `features` emptied, kept only when that page is not truncated;
      otherwise the empty object. */
  function Template(ps: seq<Response>): Object
  {
    if |ps| >= 1 && !Truncated(ps[0].body) then TemplateOf(ps[0].body) else map[]
  }

  /** `{...template, type, features}` as serialised: `type` is dropped when undefined. */
  function FinalDocument(template: Object, t: Option<Json>, features: seq<Json>): Object
  {
    var base := template - {"type"};
    var typed := if t.Some? then base["type" := t.value] else base;
    typed["features" := Arr(features)]
  }

  /** The final document holds the gathered features, the type exactly when one was seen,
      and otherwise the template's keys with their values. */
  lemma FinalDocumentShape(template: Object, t: Option<Json>, features: seq<Json>)
    ensures var doc := FinalDocument(template, t, features);
            && "features" in doc && doc["features"] == Arr(features)
            && ("type" in doc <==> t.Some?)
            && (t.Some? ==> doc["type"] == t.value)
            && doc.Keys == template.Keys - {"type"} + {"features"} + (if t.Some? then {"type"} else {})
            && (forall k :: k in template && k != "type" && k != "features" ==> doc[k] == template[k])
  {
  }

  /** The document made of the fetched pages. */
  function Assemble(ps: seq<Response>): Object
  {
    FinalDocument(Template(ps), FirstType(ps), AllFeatures(ps))
  }

  /** The first `k` pages answer 200 and announce more records. */
  predicate AllTruncated(pages: seq<Response>, k: nat)
  {
    k <= |pages| && forall i :: 0 <= i < k ==> pages[i].status == 200 && Truncated(pages[i].body)
  }

  /** The first `n` pages answer 200, every one but the last is truncated and the last is
      not: the download stops after page `n`. */
  predicate Completes(pages: seq<Response>, n: nat)
  {
    && 1 <= n <= |pages|
    && AllTruncated(pages, n - 1)
    && pages[n - 1].status == 200
    && !Truncated(pages[n - 1].body)
  }

  /** The download stops at a failed request: the pages before the `k`-th query answered 200
      and were truncated, and the `k`-th query got no answer or a non-200 one. */
  predicate FailsAt(pages: seq<Response>, k: nat)
  {
    && 1 <= k
    && AllTruncated(pages, k - 1)
    && (k - 1 == |pages| || pages[k - 1].status != 200)
  }

  /** At most one number of pages completes a download. */
  lemma CompletesUnique(pages: seq<Response>, n: nat, m: nat)
    requires Completes(pages, n) && Completes(pages, m)
    ensures n == m
  {
  }

  /** A download either completes after some number of pages or fails at some query, never
      both. */
  lemma CompletesOrFails(pages: seq<Response>, k: nat)
    requires FailsAt(pages, k)
    ensures forall n :: !Completes(pages, n)
  {
  }

  lemma PrefixStep(pages: seq<Response>, k: nat)
    requires k < |pages|
    ensures AllFeatures(pages[..k + 1]) == AllFeatures(pages[..k]) + FeaturesOf(pages[k].body)
    ensures FirstType(pages[..k + 1]) == (if FirstType(pages[..k]).Some? then FirstType(pages[..k])
                                          else if TruthyAt(pages[k].body, "type") then Some(pages[k].body["type"]) else None)
    ensures k >= 1 ==> Template(pages[..k + 1]) == Template(pages[..k])
  {
    assert pages[..k + 1][..k] == pages[..k];
  }

  // ---------------------------------------------------------------------------
  // Download

  /** What the page loop gathers: all features, the first truthy `type`, the template. */
  datatype Gathered = Gathered(features: seq<Json>, kind: Option<Json>, template: Object)

  /**
   * The page loop of `downloadResource`: ask for pages of `PageSize` records at offsets 0,
   * 1000, 2000, ... until a page is not truncated, gathering features, the first truthy
   * `type` and the template. `pages[k]` answers the k-th query; a query past the end of
   * `pages` is a failed request. `None` is a thrown error.
   */
  method Paginate(resourceId: string, pages: seq<Response>) returns (g: Option<Gathered>, queries: seq<Query>)
    ensures queries == PageQueries(resourceId, |queries|)
    ensures g.Some? ==> Completes(pages, |queries|)
    ensures g.Some? ==> g.value == Gathered(AllFeatures(pages[..|queries|]), FirstType(pages[..|queries|]),
                                            Template(pages[..|queries|]))
    ensures g.None? ==> FailsAt(pages, |queries|)
  {
    var features: seq<Json> := [];
    var hasMore := true;
    var resultOffset: nat := 0;
    var kind: Option<Json> := None;
    var template: Object := map[];
    queries := [];
    while hasMore
      invariant |queries| <= |pages|
      invariant queries == PageQueries(resourceId, |queries|)
      invariant hasMore ==> AllTruncated(pages, |queries|) && resultOffset == PageSize * |queries|
      invariant !hasMore ==> Completes(pages, |queries|)
      invariant features == AllFeatures(pages[..|queries|])
      invariant kind == FirstType(pages[..|queries|])
      invariant template == Template(pages[..|queries|])
      decreases |pages| - |queries|, hasMore
    {
      var k := |queries|;
      queries := queries + [PageQuery(resourceId, resultOffset)];
      if k == |pages| || pages[k].status != 200 {
        return None, queries;
      }
      var data := pages[k].body;
      PrefixStep(pages, k);
      if kind.None? && TruthyAt(data, "type") {
        kind := Some(data["type"]);
      }
      features := features + FeaturesOf(data);
      if Truncated(data) {
        resultOffset := resultOffset + PageSize;
        hasMore := true;
      } else {
        hasMore := false;
      }
      if resultOffset == 0 {
        template := TemplateOf(data);
      }
    }
    g := Some(Gathered(features, kind, template));
  }

  /** What the download leaves behind: the file's path and the document written to it. */
  datatype Saved = Saved(filePath: FilePath, content: Object)

  /**
   * `downloadResource`: the page loop, then the document `{...template, type, features}`
   * written to the sanitised file name in `tmpDir`; `writable` says whether the write
   * succeeds. Every failure becomes the one generic download error.
   */
  method DownloadResource(resourceId: string, tmpDir: string, fileName: string, pages: seq<Response>, writable: bool)
    returns (r: Result<Saved, Failure>, queries: seq<Query>)
    ensures forall i :: 0 <= i < |queries| ==> queries[i] == PageQuery(resourceId, PageSize * i)
    ensures r.Ok? <==> writable && exists n :: Completes(pages, n)
    ensures r.Err? ==> r.error == DownloadFailed
    ensures (exists n :: Completes(pages, n)) ==> Completes(pages, |queries|)
    ensures r.Ok? ==> r.value == Saved(InDir(tmpDir, SafeFileName(fileName)), Assemble(pages[..|queries|]))
    ensures (forall n :: !Completes(pages, n)) ==> FailsAt(pages, |queries|)
  {
    var path := InDir(tmpDir, SafeFileName(fileName));
    var g;
    g, queries := Paginate(resourceId, pages);
    PageQueriesAt(resourceId, |queries|);
    if g.None? {
      CompletesOrFails(pages, |queries|);
      return Err(DownloadFailed), queries;
    }
    forall n | Completes(pages, n) ensures n == |queries| {
      CompletesUnique(pages, n, |queries|);
    }
    if !writable {
      return Err(DownloadFailed), queries;
    }
    r := Ok(Saved(path, FinalDocument(g.value.template, g.value.kind, g.value.features)));
  }

  /** What `getResource` returns: the record with its file path, and the file's content. */
  datatype Downloaded = Downloaded(resource: Resource, content: Object)

  /** `getResource`: the metadata step, then the download under the record's title. A
      rejected type stops before any page is asked for. */
  method GetResource(resourceId: string, tmpDir: string, infos: map<string, Object>, pages: seq<Response>, writable: bool)
    returns (r: Result<Downloaded, Failure>, queries: seq<Query>)
    ensures GetMetaData(resourceId, infos).Err? ==> r == Err(GetMetaData(resourceId, infos).error) && queries == []
    ensures r.Ok? <==> GetMetaData(resourceId, infos).Ok? && writable && exists n :: Completes(pages, n)
    ensures r.Err? && GetMetaData(resourceId, infos).Ok? ==> r.error == DownloadFailed
    ensures r.Ok? ==>
              var meta := GetMetaData(resourceId, infos).value;
              && Completes(pages, |queries|)
              && r.value.resource == meta.(filePath := InDir(tmpDir, SafeFileName(meta.title)))
              && r.value.content == Assemble(pages[..|queries|])
  {
    var meta := GetMetaData(resourceId, infos);
    if meta.Err? {
      return Err(meta.error), [];
    }
    var saved;
    saved, queries := DownloadResource(resourceId, tmpDir, meta.value.title, pages, writable);
    if saved.Err? {
      return Err(saved.error), queries;
    }
    r := Ok(Downloaded(meta.value.(filePath := saved.value.filePath), saved.value.content));
  }

  // ---------------------------------------------------------------------------
  // Properties of the assembled document

  /** A download of one page writes back exactly that page's body precisely when the body
      holds a `features` array and either no `type` or a truthy one. */
  lemma SinglePageEcho(p: Response)
    requires p.status == 200 && !Truncated(p.body)
    ensures Completes([p], 1)
    ensures Assemble([p]) == p.body <==>
            ("features" in p.body && p.body["features"].Arr? && ("type" in p.body ==> Truthy(p.body["type"])))
  {
    var doc := Assemble([p]);
    assert [p][0] == p && [p][..0] == [];
    assert FirstType([p][..0]).None?;
    var t := FirstType([p]);
    assert t == if TruthyAt(p.body, "type") then Some(p.body["type"]) else None;
    FinalDocumentShape(TemplateOf(p.body), t, FeaturesOf(p.body));
    if "features" in p.body && p.body["features"].Arr? && ("type" in p.body ==> Truthy(p.body["type"])) {
      assert doc.Keys == p.body.Keys;
      forall k | k in doc ensures doc[k] == p.body[k] {
      }
    }
  }

  /** A download of two or more pages keeps only `type` and `features`: the first page's
      other keys are lost because the template is never captured. */
  lemma MultiPageKeys(pages: seq<Response>, n: nat)
    requires Completes(pages, n) && n >= 2
    ensures Assemble(pages[..n]).Keys <= {"type", "features"}
    ensures Assemble(pages[..n])["features"] == Arr(AllFeatures(pages[..n]))
  {
    assert Truncated(pages[..n][0].body);
    var ps := pages[..n];
    FinalDocumentShape(Template(ps), FirstType(ps), AllFeatures(ps));
  }

  /** A 1000-record truncated page followed by a 42-record final page give a 1042-feature
      document with no `type` when neither page has one. */
  lemma TwoPageDownload(f1: seq<Json>, f2: seq<Json>)
    requires |f1| == 1000 && |f2| == 42
    ensures var pages := [Response(200, map["features" := Arr(f1), "exceededTransferLimit" := Bool(true)]),
                          Response(200, map["features" := Arr(f2)])];
            && Completes(pages, 2)
            && Assemble(pages[..2]) == map["features" := Arr(f1 + f2)]
            && |f1 + f2| == 1042
  {
    var pages := [Response(200, map["features" := Arr(f1), "exceededTransferLimit" := Bool(true)]),
                  Response(200, map["features" := Arr(f2)])];
    assert pages[..2] == pages;
    assert pages[..1] == [pages[0]];
    assert AllFeatures(pages) == AllFeatures(pages[..1]) + f2;
    assert pages[..1][..0] == [];
    assert FirstType(pages[..1]).None?;
    assert FirstType(pages).None?;
  }

  /** A `Feature Layer` named `Equipement` with id `1` gives the record titled `Equipement-1`,
      saved as `Equipement-1.geojson`; its description is passed through. */
  lemma AcceptedLayerExample(resourceId: string)
    ensures var data := map["type" := Str(FeatureLayer), "name" := Str("Equipement"), "id" := Str("1"),
                            "description" := Str("Description of the resource")];
            var r := GetMetaData(resourceId, map[MetadataUrl(resourceId) := data]);
            && r.Ok?
            && r.value == Resource(resourceId, "Equipement-1", "geojson", resourceId, Unset, Some(Str("Description of the resource")))
            && SafeFileName(r.value.title) == "Equipement-1" + ".geojson"
  {
    var data := map["type" := Str(FeatureLayer), "name" := Str("Equipement"), "id" := Str("1"),
                     "description" := Str("Description of the resource")];
    assert Downloadable(data);
    assert RenderField(data, "name") == "Equipement";
    assert RenderField(data, "id") == "1";
    assert "Equipement" + "-" + "1" == "Equipement-1";
    SafeExampleName();
  }

  lemma SafeExampleName()
    ensures SafeFileName("Equipement-1") == "Equipement-1" + ".geojson"
  {
    ExampleNameIsSafe();
    SanitizeIdempotent("Equipement-1");
  }

  lemma ExampleNameIsSafe()
    ensures forall i :: 0 <= i < |"Equipement-1"| ==> !Unsafe("Equipement-1"[i])
  {
    var name := "Equipement-1";
    forall i | 0 <= i < |name| ensures !Unsafe(name[i]) {
      assert 'A' <= name[i] <= 'z' || '-' <= name[i] <= '9';
    }
  }

  /** A `Map Service` is rejected with the message naming it. */
  lemma RejectedLayerExample(resourceId: string)
    ensures var data := map["type" := Str("Map Service"), "name" := Str("EQUIPEMENTS_PUBLICS"), "id" := Str("1")];
            var r := GetMetaData(resourceId, map[MetadataUrl(resourceId) := data]);
            && r == Err(UnsupportedType("Map Service"))
            && Message(r.error) == Some(UnsupportedTypePrefix + "Map Service" + ")")
  {
    var data := map["type" := Str("Map Service"), "name" := Str("EQUIPEMENTS_PUBLICS"), "id" := Str("1")];
    assert "Map Service"[0] != FeatureLayer[0] && "Map Service"[0] != AnnotationLayer[0];
    assert !Downloadable(data);
    assert RenderField(data, "type") == "Map Service";
  }
}

=== FILE: json_values.dfy ===
/** Parsed JSON values as JavaScript sees them after `response.data`, and JavaScript truthiness. */
module JsonValues {

  /** A JSON value. Numbers are integers: no fractional or non-finite values. */
  datatype Json =
    | Null
    | Bool(b: bool)
    | Num(n: int)
    | Str(s: string)
    | Arr(items: seq<Json>)
    | Obj(fields: map<string, Json>)

  /** A JSON object: its keys and their values. A key holding `undefined` is absent. */
  type Object = map<string, Json>

  /** JavaScript truthiness: `null`, `false`, `0` and `""` are falsy, everything else truthy. */
  predicate Truthy(v: Json)
  {
    match v
    case Null => false
    case Bool(b) => b
    case Num(n) => n != 0
    case Str(s) => s != ""
    case Arr(_) => true
    case Obj(_) => true
  }

  /** `obj[key]` read as a condition: an absent key is `undefined`, hence falsy. */
  predicate TruthyAt(obj: Object, key: string)
  {
    key in obj && Truthy(obj[key])
  }
}

=== FILE: listing.dfy ===
/**
 * The catalog listing resolver: given the catalog's base URL, the folder the user is in
 * and the directory, it lists the children of that folder in four groups (folder names,
 * browsable services, layers, sub-layers) and builds the breadcrumb path.
 */
module Listing {
  import opened Results
  import opened Strings
  import opened Sequences
  import opened ArcGis
  import opened Catalog
  import Breadcrumb

  /** What `list` returns: the children, their number and the breadcrumb path. */
  datatype ListResult = ListResult(results: seq<Node>, count: nat, path: seq<Node>)

  /** Why `list` throws: the descriptor of the listed URL could not be fetched. */
  datatype ListError = Unreachable(url: string)

  /** The URL listed: the current folder id when it is a non-empty string, else the base URL. */
  function TargetUrl(baseUrl: string, currentFolderId: Option<string>): (url: string)
    ensures url == baseUrl || (currentFolderId.Some? && url == currentFolderId.value && currentFolderId.value != "")
    ensures currentFolderId.Some? && currentFolderId.value != "" ==> url == currentFolderId.value
  {
    if currentFolderId.Some? && currentFolderId.value != "" then currentFolderId.value else baseUrl
  }

  // ---------------------------------------------------------------------------
  // One node per upstream element

  function FolderNode(url: string, folder: string): Node
  {
    Folder(url + "/" + folder, folder)
  }

  /** A service's URL: its declared `url` when present, else `baseUrl + name + '/' + type`
      (no separator between the base URL and the name). */
  function ServiceId(baseUrl: string, s: Service): string
  {
    if s.url.Some? then s.url.value else baseUrl + s.name + "/" + s.kind
  }

  /** A `FeatureServer` or `MapServer` service becomes a folder titled `name (type)`;
      any other service type is skipped. */
  function ServiceNode(baseUrl: string, s: Service): Option<Node>
  {
    if IsServiceMarker(s.kind) then Some(Folder(ServiceId(baseUrl, s), s.name + " (" + s.kind + ")"))
    else None
  }

  /** The URL of layer `l` under the listed URL. */
  function LayerUrl(url: string, l: Layer): string
  {
    url + "/" + IntToString(l.id)
  }

  /** A group layer becomes a folder; a top-level feature or annotation layer becomes a
      resource whose origin is its own URL; every other layer is skipped. */
  function LayerNode(url: string, l: Layer): Option<Node>
  {
    var id := LayerUrl(url, l);
    var title := l.name + " - " + IntToString(l.id);
    if l.kind == GroupLayer then Some(Folder(id, title))
    else if IsFeatureKind(l.kind) && l.parentLayerId == Some(-1) then Some(Resource(id, title, Some(id), "geojson", Some("")))
    else None
  }

  /** The longest prefix of `url` that ends with `/` (`url.substring(0, url.lastIndexOf('/') + 1)`),
      empty when `url` has no `/`. */
  function SiblingPrefix(url: string): (p: string)
    ensures p <= url
    ensures p == "" || p[|p| - 1] == '/'
    ensures forall j :: |p| <= j < |url| ==> url[j] != '/'
  {
    url[..LastIndexOf(url, '/') + 1]
  }

  /** A sub-layer becomes a resource addressed as a sibling of the listed layer. The node
      has no `origin` and no `filePath` key. */
  function SubLayerNode(url: string, s: SubLayer): Node
  {
    Resource(SiblingPrefix(url) + s.id, s.name + " - " + s.id, None, "geojson", None)
  }

  // ---------------------------------------------------------------------------
  // The four groups

  function FolderNodes(url: string, d: Descriptor): seq<Node>
  {
    Map(OrEmpty(d.folders), (f: string) => FolderNode(url, f))
  }

  function ServiceNodes(baseUrl: string, d: Descriptor): seq<Node>
  {
    FilterMap(OrEmpty(d.services), (s: Service) => ServiceNode(baseUrl, s))
  }

  function LayerNodes(url: string, d: Descriptor): seq<Node>
  {
    FilterMap(OrEmpty(d.layers), (l: Layer) => LayerNode(url, l))
  }

  function SubLayerNodes(url: string, d: Descriptor): seq<Node>
  {
    Map(OrEmpty(d.subLayers), (s: SubLayer) => SubLayerNode(url, s))
  }

  /** The children of a descriptor: folders, then services, then layers, then sub-layers. */
  function Children(baseUrl: string, url: string, d: Descriptor): seq<Node>
  {
    FolderNodes(url, d) + ServiceNodes(baseUrl, d) + LayerNodes(url, d) + SubLayerNodes(url, d)
  }

  /** `list`: fetch the target URL's descriptor, classify its elements, build the path. */
  function List(baseUrl: string, currentFolderId: Option<string>, remote: Remote): (r: Result<ListResult, ListError>)
    ensures r.Err? <==> TargetUrl(baseUrl, currentFolderId) !in remote
    ensures r.Err? ==> r.error == Unreachable(TargetUrl(baseUrl, currentFolderId))
    ensures r.Ok? ==> r.value.count == |r.value.results|
    ensures r.Ok? ==> var url := TargetUrl(baseUrl, currentFolderId);
                      r.value.results == Children(baseUrl, url, remote[url])
                      && r.value.path == Breadcrumb.Path(baseUrl, url)
  {
    var url := TargetUrl(baseUrl, currentFolderId);
    if url !in remote then Err(Unreachable(url))
    else
      var results := Children(baseUrl, url, remote[url]);
      Ok(ListResult(results, |results|, Breadcrumb.Path(baseUrl, url)))
  }

  // ---------------------------------------------------------------------------
  // Properties of the children

  /** The children are laid out group after group, and the count is the sum of the groups:
      every folder name, every browsable service, every group or top-level feature layer,
      every sub-layer. */
  lemma ChildrenLayout(baseUrl: string, url: string, d: Descriptor)
    ensures var c := Children(baseUrl, url, d);
            var nf := |OrEmpty(d.folders)|;
            var ns := CountKept(OrEmpty(d.services), (s: Service) => ServiceNode(baseUrl, s));
            var nl := CountKept(OrEmpty(d.layers), (l: Layer) => LayerNode(url, l));
            && |c| == nf + ns + nl + |OrEmpty(d.subLayers)|
            && (forall i :: 0 <= i < nf ==> c[i] == Folder(url + "/" + OrEmpty(d.folders)[i], OrEmpty(d.folders)[i]))
            && c[nf..nf + ns] == ServiceNodes(baseUrl, d)
            && c[nf + ns..nf + ns + nl] == LayerNodes(url, d)
            && (forall i :: 0 <= i < |OrEmpty(d.subLayers)| ==> c[nf + ns + nl + i] == SubLayerNode(url, OrEmpty(d.subLayers)[i]))
  {
    FilterMapLength(OrEmpty(d.services), (s: Service) => ServiceNode(baseUrl, s));
    FilterMapLength(OrEmpty(d.layers), (l: Layer) => LayerNode(url, l));
  }

  /** A service contributes a child exactly when its type is `FeatureServer` or `MapServer`;
      the child is a folder titled `name (type)` whose id is the service URL. */
  lemma ServiceNodesCharacterized(baseUrl: string, d: Descriptor, n: Node)
    ensures n in ServiceNodes(baseUrl, d) <==>
            exists i :: 0 <= i < |OrEmpty(d.services)|
                        && IsServiceMarker(OrEmpty(d.services)[i].kind)
                        && n == Folder(ServiceId(baseUrl, OrEmpty(d.services)[i]),
                                       OrEmpty(d.services)[i].name + " (" + OrEmpty(d.services)[i].kind + ")")
  {
    FilterMapMembership(OrEmpty(d.services), (s: Service) => ServiceNode(baseUrl, s), n);
  }

  /** A resource among the layer children always comes from a top-level feature or
      annotation layer, and every such layer contributes its resource. */
  lemma LayerResourcesAreTopLevel(url: string, d: Descriptor, n: Node)
    requires n.Resource?
    ensures n in LayerNodes(url, d) <==>
            exists i :: 0 <= i < |OrEmpty(d.layers)|
                        && IsFeatureKind(OrEmpty(d.layers)[i].kind)
                        && OrEmpty(d.layers)[i].parentLayerId == Some(-1)
                        && n == Resource(LayerUrl(url, OrEmpty(d.layers)[i]),
                                         OrEmpty(d.layers)[i].name + " - " + IntToString(OrEmpty(d.layers)[i].id),
                                         Some(LayerUrl(url, OrEmpty(d.layers)[i])), "geojson", Some(""))
  {
    FilterMapMembership(OrEmpty(d.layers), (l: Layer) => LayerNode(url, l), n);
  }

  /** A folder among the layer children always comes from a group layer. */
  lemma LayerFoldersAreGroups(url: string, d: Descriptor, n: Node)
    requires n.Folder?
    ensures n in LayerNodes(url, d) <==>
            exists i :: 0 <= i < |OrEmpty(d.layers)|
                        && OrEmpty(d.layers)[i].kind == GroupLayer
                        && n == Folder(LayerUrl(url, OrEmpty(d.layers)[i]),
                                       OrEmpty(d.layers)[i].name + " - " + IntToString(OrEmpty(d.layers)[i].id))
  {
    FilterMapMembership(OrEmpty(d.layers), (l: Layer) => LayerNode(url, l), n);
  }

  /** A layer that has a parent is not listed as a resource of its own: when layer ids are
      unique, no layer resource carries its URL. */
  lemma NestedLayerNotListed(url: string, d: Descriptor, j: nat)
    requires j < |OrEmpty(d.layers)|
    requires OrEmpty(d.layers)[j].parentLayerId != Some(-1)
    requires forall i :: 0 <= i < |OrEmpty(d.layers)| && OrEmpty(d.layers)[i].id == OrEmpty(d.layers)[j].id ==> i == j
    ensures forall n :: n in LayerNodes(url, d) && n.Resource? ==> n.id != LayerUrl(url, OrEmpty(d.layers)[j])
  {
    var layers := OrEmpty(d.layers);
    forall n | n in LayerNodes(url, d) && n.Resource?
      ensures n.id != LayerUrl(url, layers[j])
    {
      LayerResourcesAreTopLevel(url, d, n);
      var i :| 0 <= i < |layers| && IsFeatureKind(layers[i].kind) && layers[i].parentLayerId == Some(-1)
               && n.id == LayerUrl(url, layers[i]);
      if n.id == LayerUrl(url, layers[j]) {
        var p := url + "/";
        assert p + IntToString(layers[i].id) == p + IntToString(layers[j].id);
        assert IntToString(layers[i].id) == (p + IntToString(layers[i].id))[|p|..];
        assert IntToString(layers[j].id) == (p + IntToString(layers[j].id))[|p|..];
        IntToStringInjective(layers[i].id, layers[j].id);
      }
    }
  }

  /** Sub-layers are siblings: below `parent/segment`, a sub-layer's id is `parent/` followed
      by the sub-layer id. */
  lemma SubLayerIsSibling(parent: string, segment: string, s: SubLayer)
    requires '/' !in segment
    ensures SubLayerNode(parent + "/" + segment, s).id == parent + "/" + s.id
  {
    var url := parent + "/" + segment;
    var p := SiblingPrefix(url);
    assert url[|parent|] == '/';
    assert p == url[..|parent| + 1] == parent + "/";
  }
}

=== FILE: listing_examples.dfy ===
/** The listings the connector's own test scenarios describe, worked out on the model for
    any catalog base URL (the scenarios use `https://example.com/arcgis/rest/services`). */
module ListingExamples {
  import opened Results
  import opened Strings
  import opened ArcGis
  import opened Catalog
  import opened Listing
  import Sequences
  import Breadcrumb

  function RootServices(baseUrl: string): seq<Service>
  {
    [Service("Service1", FeatureServer, Some(baseUrl + "/Service1/FeatureServer")),
     Service("Service2", MapServer, Some(baseUrl + "/Service2/MapServer"))]
  }

  lemma RootFolders(baseUrl: string)
    ensures FolderNodes(baseUrl, Descriptor(Some(["folder1", "folder2"]), Some(RootServices(baseUrl)), None, None, None))
         == [Folder(baseUrl + "/folder1", "folder1"), Folder(baseUrl + "/folder2", "folder2")]
  {
    assert baseUrl + "/" + "folder1" == baseUrl + "/folder1";
    assert baseUrl + "/" + "folder2" == baseUrl + "/folder2";
  }

  lemma RootServiceNodes(baseUrl: string)
    ensures ServiceNodes(baseUrl, Descriptor(Some(["folder1", "folder2"]), Some(RootServices(baseUrl)), None, None, None))
         == [Folder(baseUrl + "/Service1/FeatureServer", "Service1 (FeatureServer)"),
             Folder(baseUrl + "/Service2/MapServer", "Service2 (MapServer)")]
  {
    var s1 := Service("Service1", FeatureServer, Some(baseUrl + "/Service1/FeatureServer"));
    var s2 := Service("Service2", MapServer, Some(baseUrl + "/Service2/MapServer"));
    assert RootServices(baseUrl) == [s1, s2];
    assert [s1, s2][1..] == [s2];
    assert [s2][1..] == [];
    assert "Service1" + " (" + "FeatureServer" + ")" == "Service1 (FeatureServer)";
    assert "Service2" + " (" + "MapServer" + ")" == "Service2 (MapServer)";
    var n1 := Folder(baseUrl + "/Service1/FeatureServer", "Service1 (FeatureServer)");
    var n2 := Folder(baseUrl + "/Service2/MapServer", "Service2 (MapServer)");
    var f := (s: Service) => ServiceNode(baseUrl, s);
    assert f(s1) == Some(n1);
    assert f(s2) == Some(n2);
    assert Sequences.FilterMap([s2], f) == [n2] + Sequences.FilterMap([], f);
    assert Sequences.FilterMap([s1, s2], f) == [n1] + Sequences.FilterMap([s2], f);
  }

  lemma RootPath(baseUrl: string)
    ensures Breadcrumb.Path(baseUrl, baseUrl) == []
  {
    assert SubstringFrom(baseUrl, |baseUrl|) == "";
    assert Breadcrumb.Segments(baseUrl, baseUrl) == [""];
    assert Breadcrumb.EntrySegments([""]) == [];
  }

  /** Two folder names and two browsable services at the catalog root give four children,
      folders first, and an empty path. */
  lemma RootListing(baseUrl: string)
    ensures var d := Descriptor(Some(["folder1", "folder2"]), Some(RootServices(baseUrl)), None, None, None);
            var r := List(baseUrl, Some(""), map[baseUrl := d]);
            && r.Ok?
            && r.value.count == 4
            && r.value.results == [
                 Folder(baseUrl + "/folder1", "folder1"),
                 Folder(baseUrl + "/folder2", "folder2"),
                 Folder(baseUrl + "/Service1/FeatureServer", "Service1 (FeatureServer)"),
                 Folder(baseUrl + "/Service2/MapServer", "Service2 (MapServer)")]
            && r.value.path == []
  {
    RootFolders(baseUrl);
    RootServiceNodes(baseUrl);
    RootPath(baseUrl);
  }

  lemma SegmentsOfLayerUrl()
    ensures Split("/test-1/FeatureServer/1", '/') == ["", "test-1", "FeatureServer", "1"]
  {
    var parts := ["", "test-1", "FeatureServer", "1"];
    assert parts[1..] == ["test-1", "FeatureServer", "1"];
    assert parts[2..] == ["FeatureServer", "1"];
    assert parts[3..] == ["1"];
    assert Join(["1"], '/') == "1";
    assert Join(parts[2..], '/') == "FeatureServer/1";
    assert Join(parts[1..], '/') == "test-1/FeatureServer/1";
    assert Join(parts, '/') == "/test-1/FeatureServer/1";
    SplitJoin(parts, '/');
  }

  lemma EntrySegmentsOfLayerUrl()
    ensures Breadcrumb.EntrySegments(["", "test-1", "FeatureServer", "1"]) == ["test-1", "1"]
  {
    var parts := ["", "test-1", "FeatureServer", "1"];
    assert parts[1..] == ["test-1", "FeatureServer", "1"];
    assert parts[1..][1..] == ["FeatureServer", "1"];
    assert parts[1..][1..][1..] == ["1"];
    assert parts[1..][1..][1..][1..] == [];
  }

  lemma SubLayerListingPath(baseUrl: string)
    ensures var url := baseUrl + "/test-1/FeatureServer/1";
            Titles(Breadcrumb.Path(baseUrl, url)) == ["test-1", "1"]
  {
    var url := baseUrl + "/test-1/FeatureServer/1";
    var parts := ["", "test-1", "FeatureServer", "1"];
    SegmentsOfLayerUrl();
    assert SubstringFrom(url, |baseUrl|) == "/test-1/FeatureServer/1";
    assert Breadcrumb.Segments(baseUrl, url) == parts;
    EntrySegmentsOfLayerUrl();
  }

  lemma SubLayerListingChildren(baseUrl: string)
    ensures var url := baseUrl + "/test-1/FeatureServer/1";
            var d := Descriptor(None, None, None, Some([SubLayer("0", "SubLayer1")]), None);
            Children(baseUrl, url, d) == [Resource(baseUrl + "/test-1/FeatureServer/0", "SubLayer1 - 0", None, "geojson", None)]
  {
    var url := baseUrl + "/test-1/FeatureServer/1";
    assert url == (baseUrl + "/test-1/FeatureServer") + "/" + "1";
    SubLayerIsSibling(baseUrl + "/test-1/FeatureServer", "1", SubLayer("0", "SubLayer1"));
    assert baseUrl + "/test-1/FeatureServer" + "/" + "0" == baseUrl + "/test-1/FeatureServer/0";
    assert "SubLayer1" + " - " + "0" == "SubLayer1 - 0";
    var d := Descriptor(None, None, None, Some([SubLayer("0", "SubLayer1")]), None);
    assert FolderNodes(url, d) == [] && ServiceNodes(baseUrl, d) == [] && LayerNodes(url, d) == [];
  }

  /** Listing a layer URL whose descriptor holds one sub-layer (and a `tables` key, which the
      descriptor does not represent) gives one sibling resource and a two-entry path: the
      service segment merged with `FeatureServer`, then the layer. */
  lemma SubLayerListing(baseUrl: string)
    ensures var url := baseUrl + "/test-1/FeatureServer/1";
            var d := Descriptor(None, None, None, Some([SubLayer("0", "SubLayer1")]), None);
            var r := List(baseUrl, Some(url), map[url := d]);
            && r.Ok?
            && r.value.results == [Resource(baseUrl + "/test-1/FeatureServer/0", "SubLayer1 - 0", None, "geojson", None)]
            && Titles(r.value.path) == ["test-1", "1"]
  {
    SubLayerListingChildren(baseUrl);
    SubLayerListingPath(baseUrl);
  }

  lemma FolderListingPath(baseUrl: string)
    ensures Titles(Breadcrumb.Path(baseUrl, baseUrl + "/folder1")) == ["folder1"]
  {
    var url := baseUrl + "/folder1";
    var parts := ["", "folder1"];
    assert Join(parts, '/') == "/folder1";
    SplitJoin(parts, '/');
    assert SubstringFrom(url, |baseUrl|) == "/folder1";
    assert Breadcrumb.Segments(baseUrl, url) == parts;
  }

  /** Listing a folder gives its sub-folder and a one-entry path. */
  lemma FolderListing(baseUrl: string)
    ensures var url := baseUrl + "/folder1";
            var d := Descriptor(Some(["subfolder1"]), Some([]), None, None, None);
            var r := List(baseUrl, Some(url), map[url := d]);
            && r.Ok?
            && r.value.results == [Folder(url + "/subfolder1", "subfolder1")]
            && Titles(r.value.path) == ["folder1"]
  {
    var url := baseUrl + "/folder1";
    assert url + "/" + "subfolder1" == url + "/subfolder1";
    FolderListingPath(baseUrl);
  }
}

=== FILE: results.dfy ===
/** Optional values and success/failure outcomes shared by every module of the model. */
module Results {

  /** A value that may be absent: JavaScript's `undefined`, a missing key, a failed lookup. */
  datatype Option<+T> = None | Some(value: T)

  /** The outcome of an operation that either returns a value or throws an error. */
  datatype Result<+T, +E> = Ok(value: T) | Err(error: E)

  /** The elements of an optional array, or no elements when it is absent (`xs ?? []`). */
  function OrEmpty<T>(xs: Option<seq<T>>): seq<T>
  {
    match xs
    case Some(s) => s
    case None => []
  }
}

=== FILE: sequences.dfy ===
/** Order-preserving transformations of sequences: the `forEach`-and-`push` loops of the source. */
module Sequences {
  import opened Results

  /** One output per input, in input order (`xs.forEach(x => out.push(f(x)))`). */
  function Map<A, B>(xs: seq<A>, f: A -> B): (ys: seq<B>)
    ensures |ys| == |xs|
    ensures forall i :: 0 <= i < |xs| ==> ys[i] == f(xs[i])
  {
    if |xs| == 0 then [] else [f(xs[0])] + Map(xs[1..], f)
  }

  /** At most one output per input, in input order: the inputs `f` maps to `None` are skipped. */
  function FilterMap<A, B>(xs: seq<A>, f: A -> Option<B>): (ys: seq<B>)
    ensures |ys| <= |xs|
  {
    if |xs| == 0 then [] else Kept(xs[0], f) + FilterMap(xs[1..], f)
  }

  /** The output of one input: its image when `f` keeps it, nothing otherwise. */
  function Kept<A, B>(x: A, f: A -> Option<B>): seq<B>
  {
    match f(x) case Some(y) => [y] case None => []
  }

  /** How many inputs `f` keeps. */
  function CountKept<A, B>(xs: seq<A>, f: A -> Option<B>): nat
  {
    if |xs| == 0 then 0 else (if f(xs[0]).Some? then 1 else 0) + CountKept(xs[1..], f)
  }

  /** An output is exactly the image of some kept input. */
  lemma {:induction false} FilterMapMembership<A, B>(xs: seq<A>, f: A -> Option<B>, y: B)
    ensures y in FilterMap(xs, f) <==> exists i :: 0 <= i < |xs| && f(xs[i]) == Some(y)
  {
    if |xs| > 0 {
      FilterMapMembership(xs[1..], f, y);
      if exists i :: 0 <= i < |xs| && f(xs[i]) == Some(y) {
        var i :| 0 <= i < |xs| && f(xs[i]) == Some(y);
        if i > 0 {
          assert xs[1..][i - 1] == xs[i];
        }
      }
      if y in FilterMap(xs[1..], f) {
        var i :| 0 <= i < |xs[1..]| && f(xs[1..][i]) == Some(y);
        assert xs[i + 1] == xs[1..][i];
      }
    }
  }

  /** One output per kept input. */
  lemma {:induction false} FilterMapLength<A, B>(xs: seq<A>, f: A -> Option<B>)
    ensures |FilterMap(xs, f)| == CountKept(xs, f)
  {
    if |xs| > 0 {
      FilterMapLength(xs[1..], f);
    }
  }

  /** Filtering a single input keeps its image exactly when `f` keeps it. */
  lemma FilterMapSingle<A, B>(x: A, f: A -> Option<B>)
    ensures FilterMap([x], f) == (if f(x).Some? then [f(x).value] else [])
  {
    assert [x][1..] == [];
  }

  /** Filtering a concatenation filters each part in place: the outputs keep the inputs'
      order. With `FilterMapSingle` this fixes the output position of every kept input. */
  lemma {:induction false} FilterMapAppend<A, B>(xs: seq<A>, ys: seq<A>, f: A -> Option<B>)
    ensures FilterMap(xs + ys, f) == FilterMap(xs, f) + FilterMap(ys, f)
  {
    if |xs| == 0 {
      assert xs + ys == ys;
    } else {
      var head, rest := Kept(xs[0], f), xs[1..];
      assert (xs + ys)[0] == xs[0];
      assert (xs + ys)[1..] == rest + ys;
      FilterMapAppend(rest, ys, f);
      var a, b := FilterMap(rest, f), FilterMap(ys, f);
      assert FilterMap(xs + ys, f) == head + (a + b);
      assert head + (a + b) == (head + a) + b;
    }
  }

  /** `xs.find(p)`: the first element satisfying `p`, or `None` when there is none. */
  function FindFirst<T>(xs: seq<T>, p: T -> bool): (r: Option<T>)
    ensures r.None? <==> forall i :: 0 <= i < |xs| ==> !p(xs[i])
    ensures r.Some? ==> exists i :: 0 <= i < |xs| && xs[i] == r.value && p(xs[i])
                                    && forall j :: 0 <= j < i ==> !p(xs[j])
  {
    if |xs| == 0 then None
    else if p(xs[0]) then Some(xs[0])
    else
      var r := FindFirst(xs[1..], p);
      assert r.Some? ==> exists i :: 1 <= i < |xs| && xs[i] == r.value && p(xs[i]) && forall j :: 0 <= j < i ==> !p(xs[j]) by {
        if r.Some? {
          var i :| 0 <= i < |xs[1..]| && xs[1..][i] == r.value && p(xs[1..][i]) && forall j :: 0 <= j < i ==> !p(xs[1..][j]);
          assert xs[i + 1] == xs[1..][i];
          forall j | 0 <= j < i + 1 ensures !p(xs[j]) {
            if j > 0 { assert xs[j] == xs[1..][j - 1]; }
          }
        }
      }
      r
  }
}

=== FILE: service_tree.dfy ===
/**
 * Recursive enumeration of every service of a catalog: the root's services, then, folder
 * by folder, the services of each folder and of its sub-folders, depth first. A folder
 * path `p` is fetched at `baseUrl + p` (no separator is inserted); a sub-folder `s` of
 * `p` has path `p + '/' + s`.
 *
 * The directory is a finite map, so the recursion terminates: each descent fetches a URL
 * strictly longer than one already fetched, and only finitely many URLs of the map are
 * at least that long.
 */
module ServiceTree {
  import opened Results
  import opened ArcGis

  // ---------------------------------------------------------------------------
  // Termination measure

  /** The directory URLs at least as long as `url`. */
  function LongerKeys(remote: Remote, url: string): set<string>
  {
    set k | k in remote && |k| >= |url|
  }

  lemma SubsetCardinality<T>(a: set<T>, b: set<T>)
    requires a <= b
    ensures |a| <= |b|
    decreases a
  {
    if a != {} {
      var x :| x in a;
      SubsetCardinality(a - {x}, b - {x});
    }
  }

  /** Looking only at longer URLs never sees more keys, and strictly fewer once a fetched
      URL is left behind. */
  lemma LongerKeysShrink(remote: Remote, url: string, longer: string)
    requires |longer| >= |url|
    ensures |LongerKeys(remote, longer)| <= |LongerKeys(remote, url)|
    ensures url in remote && |longer| > |url| ==> |LongerKeys(remote, longer)| < |LongerKeys(remote, url)|
  {
    var a, b := LongerKeys(remote, longer), LongerKeys(remote, url);
    SubsetCardinality(a, b);
    if url in remote && |longer| > |url| {
      SubsetCardinality(a, b - {url});
    }
  }

  // ---------------------------------------------------------------------------
  // The enumeration

  /** The `services` of the descriptor at `url`, none when absent (`data.services ?? []`). */
  function OwnServices(remote: Remote, url: string): seq<Service>
  {
    if url in remote then OrEmpty(remote[url].services) else []
  }

  /** The `folders` of the descriptor at `url`, none when absent (`data.folders || []`). */
  function SubFolders(remote: Remote, url: string): seq<string>
  {
    if url in remote then OrEmpty(remote[url].folders) else []
  }

  /** `listServicesInFolder(baseUrl, folder)`: the folder's own services, then those of each
      sub-folder in upstream order. `None` when some fetch on the way fails. */
  function InFolder(remote: Remote, baseUrl: string, folder: string): (r: Option<seq<Service>>)
    ensures baseUrl + folder !in remote ==> r.None?
    ensures r.Some? ==> OwnServices(remote, baseUrl + folder) <= r.value
    decreases |LongerKeys(remote, baseUrl + folder)|, 0, 0
  {
    var url := baseUrl + folder;
    if url !in remote then None
    else
      LongerKeysShrink(remote, url, baseUrl + (folder + "/"));
      match InFolders(remote, baseUrl, folder + "/", SubFolders(remote, url))
      case None => None
      case Some(rest) => Some(OwnServices(remote, url) + rest)
  }

  /** The services of the folders `prefix + f` for each `f` of `subs`, in order. */
  function InFolders(remote: Remote, baseUrl: string, prefix: string, subs: seq<string>): (r: Option<seq<Service>>)
    decreases |LongerKeys(remote, baseUrl + prefix)|, 1, |subs|
  {
    if |subs| == 0 then Some([])
    else
      LongerKeysShrink(remote, baseUrl + prefix, baseUrl + (prefix + subs[0]));
      match InFolder(remote, baseUrl, prefix + subs[0])
      case None => None
      case Some(first) =>
        match InFolders(remote, baseUrl, prefix, subs[1..])
        case None => None
        case Some(rest) => Some(first + rest)
  }

  /** `listServices(baseUrl)`: the root's services, then those collected under each top-level
      folder `f`, fetched at `baseUrl + f`. */
  function ListServices(remote: Remote, baseUrl: string): (r: Option<seq<Service>>)
    ensures baseUrl !in remote ==> r.None?
    ensures r.Some? ==> OwnServices(remote, baseUrl) <= r.value
  {
    if baseUrl !in remote then None
    else
      match InFolders(remote, baseUrl, "", SubFolders(remote, baseUrl))
      case None => None
      case Some(rest) => Some(OwnServices(remote, baseUrl) + rest)
  }

  // ---------------------------------------------------------------------------
  // Reachability: which folders the enumeration visits

  /** The folder path reached from `folder` through the sub-folder names `names`. */
  function Descend(folder: string, names: seq<string>): string
    decreases |names|
  {
    if |names| == 0 then folder else Descend(folder + "/" + names[0], names[1..])
  }

  /** Every folder on the way down from `folder` through `names` is fetched, and each name is
      listed among the previous folder's `folders`. */
  predicate Reaches(remote: Remote, baseUrl: string, folder: string, names: seq<string>)
    decreases |names|
  {
    && baseUrl + folder in remote
    && (|names| == 0 ||
        (names[0] in SubFolders(remote, baseUrl + folder) && Reaches(remote, baseUrl, folder + "/" + names[0], names[1..])))
  }

  lemma {:induction false} InFolderSound(remote: Remote, baseUrl: string, folder: string, s: Service)
    requires InFolder(remote, baseUrl, folder).Some?
    requires s in InFolder(remote, baseUrl, folder).value
    ensures exists names :: Reaches(remote, baseUrl, folder, names) && s in OwnServices(remote, baseUrl + Descend(folder, names))
    decreases |LongerKeys(remote, baseUrl + folder)|, 0, 0
  {
    var url := baseUrl + folder;
    var subs := SubFolders(remote, url);
    if s in OwnServices(remote, url) {
      assert Reaches(remote, baseUrl, folder, []);
    } else {
      LongerKeysShrink(remote, url, baseUrl + (folder + "/"));
      InFoldersSound(remote, baseUrl, folder + "/", subs, s);
      var i, names :| 0 <= i < |subs| && Reaches(remote, baseUrl, folder + "/" + subs[i], names)
                      && s in OwnServices(remote, baseUrl + Descend(folder + "/" + subs[i], names));
      var path := [subs[i]] + names;
      assert path[0] == subs[i] && path[1..] == names;
      assert Reaches(remote, baseUrl, folder, path);
      assert Descend(folder, path) == Descend(folder + "/" + subs[i], names);
    }
  }

  lemma {:induction false} InFoldersSound(remote: Remote, baseUrl: string, prefix: string, subs: seq<string>, s: Service)
    requires InFolders(remote, baseUrl, prefix, subs).Some?
    requires s in InFolders(remote, baseUrl, prefix, subs).value
    ensures exists i, names :: 0 <= i < |subs| && Reaches(remote, baseUrl, prefix + subs[i], names)
                               && s in OwnServices(remote, baseUrl + Descend(prefix + subs[i], names))
    decreases |LongerKeys(remote, baseUrl + prefix)|, 1, |subs|
  {
    LongerKeysShrink(remote, baseUrl + prefix, baseUrl + (prefix + subs[0]));
    var first := InFolder(remote, baseUrl, prefix + subs[0]).value;
    if s in first {
      InFolderSound(remote, baseUrl, prefix + subs[0], s);
      var names :| Reaches(remote, baseUrl, prefix + subs[0], names)
                   && s in OwnServices(remote, baseUrl + Descend(prefix + subs[0], names));
      assert 0 < |subs|;
    } else {
      InFoldersSound(remote, baseUrl, prefix, subs[1..], s);
      var i, names :| 0 <= i < |subs[1..]| && Reaches(remote, baseUrl, prefix + subs[1..][i], names)
                      && s in OwnServices(remote, baseUrl + Descend(prefix + subs[1..][i], names));
      assert subs[1..][i] == subs[i + 1];
    }
  }

  /** Every collected sub-folder result is part of the whole. */
  lemma {:induction false} InFoldersPart(remote: Remote, baseUrl: string, prefix: string, subs: seq<string>, i: nat)
    requires InFolders(remote, baseUrl, prefix, subs).Some?
    requires i < |subs|
    ensures InFolder(remote, baseUrl, prefix + subs[i]).Some?
    ensures forall x :: x in InFolder(remote, baseUrl, prefix + subs[i]).value ==> x in InFolders(remote, baseUrl, prefix, subs).value
    decreases |subs|
  {
    if i > 0 {
      InFoldersPart(remote, baseUrl, prefix, subs[1..], i - 1);
      assert subs[1..][i - 1] == subs[i];
    }
  }

  lemma {:induction false} InFolderComplete(remote: Remote, baseUrl: string, folder: string, names: seq<string>, s: Service)
    requires InFolder(remote, baseUrl, folder).Some?
    requires Reaches(remote, baseUrl, folder, names)
    requires s in OwnServices(remote, baseUrl + Descend(folder, names))
    ensures s in InFolder(remote, baseUrl, folder).value
    decreases |names|
  {
    if |names| > 0 {
      var url := baseUrl + folder;
      var subs := SubFolders(remote, url);
      var i :| 0 <= i < |subs| && subs[i] == names[0];
      InFoldersPart(remote, baseUrl, folder + "/", subs, i);
      assert folder + "/" + subs[i] == folder + "/" + names[0];
      InFolderComplete(remote, baseUrl, folder + "/" + names[0], names[1..], s);
    }
  }

  /** A service is collected under `folder` exactly when it is listed by a folder reachable
      from `folder`: the enumeration misses no reachable folder and invents no service. */
  lemma InFolderMembership(remote: Remote, baseUrl: string, folder: string, s: Service)
    requires InFolder(remote, baseUrl, folder).Some?
    ensures s in InFolder(remote, baseUrl, folder).value <==>
            exists names :: Reaches(remote, baseUrl, folder, names) && s in OwnServices(remote, baseUrl + Descend(folder, names))
  {
    if s in InFolder(remote, baseUrl, folder).value {
      InFolderSound(remote, baseUrl, folder, s);
    }
    if exists names :: Reaches(remote, baseUrl, folder, names) && s in OwnServices(remote, baseUrl + Descend(folder, names)) {
      var names :| Reaches(remote, baseUrl, folder, names) && s in OwnServices(remote, baseUrl + Descend(folder, names));
      InFolderComplete(remote, baseUrl, folder, names, s);
    }
  }

  /** A service is listed exactly when the root lists it or a folder reachable from one of
      the root's folders does. */
  lemma ListServicesMembership(remote: Remote, baseUrl: string, s: Service)
    requires ListServices(remote, baseUrl).Some?
    ensures var tops := SubFolders(remote, baseUrl);
            s in ListServices(remote, baseUrl).value <==>
            || s in OwnServices(remote, baseUrl)
            || exists i, names :: 0 <= i < |tops| && Reaches(remote, baseUrl, tops[i], names)
                                  && s in OwnServices(remote, baseUrl + Descend(tops[i], names))
  {
    var tops := SubFolders(remote, baseUrl);
    var all := InFolders(remote, baseUrl, "", tops);
    if s in all.value {
      InFoldersSound(remote, baseUrl, "", tops, s);
      var i, names :| 0 <= i < |tops| && Reaches(remote, baseUrl, "" + tops[i], names)
                      && s in OwnServices(remote, baseUrl + Descend("" + tops[i], names));
      assert "" + tops[i] == tops[i];
    }
    if exists i, names :: 0 <= i < |tops| && Reaches(remote, baseUrl, tops[i], names)
                          && s in OwnServices(remote, baseUrl + Descend(tops[i], names)) {
      var i, names :| 0 <= i < |tops| && Reaches(remote, baseUrl, tops[i], names)
                      && s in OwnServices(remote, baseUrl + Descend(tops[i], names));
      assert "" + tops[i] == tops[i];
      InFoldersPart(remote, baseUrl, "", tops, i);
      InFolderComplete(remote, baseUrl, tops[i], names, s);
    }
  }

  // ---------------------------------------------------------------------------
  // Failure: which fetches abort the enumeration

  /** Each name of `names` is listed among the `folders` of the folder before it, every
      folder before the last being fetched; the last folder reached need not be fetched.
      These are the folders the enumeration asks for. */
  predicate Listed(remote: Remote, baseUrl: string, folder: string, names: seq<string>)
    decreases |names|
  {
    || |names| == 0
    || (&& baseUrl + folder in remote
        && names[0] in SubFolders(remote, baseUrl + folder)
        && Listed(remote, baseUrl, folder + "/" + names[0], names[1..]))
  }

  /** A successful collection fetched every folder it asked for. */
  lemma {:induction false} InFolderFetchesAll(remote: Remote, baseUrl: string, folder: string, names: seq<string>)
    requires InFolder(remote, baseUrl, folder).Some?
    requires Listed(remote, baseUrl, folder, names)
    ensures baseUrl + Descend(folder, names) in remote
    decreases |names|
  {
    if |names| > 0 {
      var subs := SubFolders(remote, baseUrl + folder);
      var i :| 0 <= i < |subs| && subs[i] == names[0];
      InFoldersPart(remote, baseUrl, folder + "/", subs, i);
      InFolderFetchesAll(remote, baseUrl, folder + "/" + names[0], names[1..]);
    }
  }

  /** A failed collection asked for a folder that could not be fetched. */
  lemma {:induction false} InFolderFailure(remote: Remote, baseUrl: string, folder: string)
    requires InFolder(remote, baseUrl, folder).None?
    ensures exists names :: Listed(remote, baseUrl, folder, names) && baseUrl + Descend(folder, names) !in remote
    decreases |LongerKeys(remote, baseUrl + folder)|, 0, 0
  {
    var url := baseUrl + folder;
    if url !in remote {
      assert Listed(remote, baseUrl, folder, []);
    } else {
      var subs := SubFolders(remote, url);
      LongerKeysShrink(remote, url, baseUrl + (folder + "/"));
      InFoldersFailure(remote, baseUrl, folder + "/", subs);
      var i, names :| 0 <= i < |subs| && Listed(remote, baseUrl, folder + "/" + subs[i], names)
                      && baseUrl + Descend(folder + "/" + subs[i], names) !in remote;
      var path := [subs[i]] + names;
      assert path[0] == subs[i] && path[1..] == names;
      assert Listed(remote, baseUrl, folder, path);
      assert Descend(folder, path) == Descend(folder + "/" + subs[i], names);
    }
  }

  lemma {:induction false} InFoldersFailure(remote: Remote, baseUrl: string, prefix: string, subs: seq<string>)
    requires InFolders(remote, baseUrl, prefix, subs).None?
    ensures exists i, names :: 0 <= i < |subs| && Listed(remote, baseUrl, prefix + subs[i], names)
                               && baseUrl + Descend(prefix + subs[i], names) !in remote
    decreases |LongerKeys(remote, baseUrl + prefix)|, 1, |subs|
  {
    LongerKeysShrink(remote, baseUrl + prefix, baseUrl + (prefix + subs[0]));
    if InFolder(remote, baseUrl, prefix + subs[0]).None? {
      InFolderFailure(remote, baseUrl, prefix + subs[0]);
      assert 0 < |subs|;
    } else {
      InFoldersFailure(remote, baseUrl, prefix, subs[1..]);
      var i, names :| 0 <= i < |subs[1..]| && Listed(remote, baseUrl, prefix + subs[1..][i], names)
                      && baseUrl + Descend(prefix + subs[1..][i], names) !in remote;
      assert subs[1..][i] == subs[i + 1];
    }
  }

  /** Collecting under `folder` succeeds exactly when every folder it asks for can be
      fetched: one failed fetch anywhere below aborts the whole collection. */
  lemma InFolderSucceeds(remote: Remote, baseUrl: string, folder: string)
    ensures InFolder(remote, baseUrl, folder).Some? <==>
            forall names :: Listed(remote, baseUrl, folder, names) ==> baseUrl + Descend(folder, names) in remote
  {
    if InFolder(remote, baseUrl, folder).Some? {
      forall names | Listed(remote, baseUrl, folder, names)
        ensures baseUrl + Descend(folder, names) in remote
      {
        InFolderFetchesAll(remote, baseUrl, folder, names);
      }
    } else {
      InFolderFailure(remote, baseUrl, folder);
    }
  }

  /** The enumeration succeeds exactly when the root and every folder asked for below a
      top-level folder can be fetched. */
  lemma ListServicesSucceeds(remote: Remote, baseUrl: string)
    ensures var tops := SubFolders(remote, baseUrl);
            ListServices(remote, baseUrl).Some? <==>
            && baseUrl in remote
            && forall i, names :: 0 <= i < |tops| && Listed(remote, baseUrl, tops[i], names)
                                  ==> baseUrl + Descend(tops[i], names) in remote
  {
    var tops := SubFolders(remote, baseUrl);
    if baseUrl in remote {
      if InFolders(remote, baseUrl, "", tops).Some? {
        forall i, names | 0 <= i < |tops| && Listed(remote, baseUrl, tops[i], names)
          ensures baseUrl + Descend(tops[i], names) in remote
        {
          InFoldersPart(remote, baseUrl, "", tops, i);
          assert "" + tops[i] == tops[i];
          InFolderFetchesAll(remote, baseUrl, tops[i], names);
        }
      } else {
        InFoldersFailure(remote, baseUrl, "", tops);
        var i, names :| 0 <= i < |tops| && Listed(remote, baseUrl, "" + tops[i], names)
                        && baseUrl + Descend("" + tops[i], names) !in remote;
        assert "" + tops[i] == tops[i];
        assert Listed(remote, baseUrl, tops[i], names) && baseUrl + Descend(tops[i], names) !in remote;
        assert ListServices(remote, baseUrl).None?;
      }
    }
  }

  // ---------------------------------------------------------------------------
  // Pre-order: the enumeration is a traversal followed by a gather

  /** The folder paths the enumeration visits under `folder`, in visiting order. */
  function Visit(remote: Remote, baseUrl: string, folder: string): (r: Option<seq<string>>)
    ensures r.Some? ==> |r.value| >= 1 && r.value[0] == folder
    decreases |LongerKeys(remote, baseUrl + folder)|, 0, 0
  {
    var url := baseUrl + folder;
    if url !in remote then None
    else
      LongerKeysShrink(remote, url, baseUrl + (folder + "/"));
      match VisitAll(remote, baseUrl, folder + "/", SubFolders(remote, url))
      case None => None
      case Some(rest) => Some([folder] + rest)
  }

  function VisitAll(remote: Remote, baseUrl: string, prefix: string, subs: seq<string>): Option<seq<string>>
    decreases |LongerKeys(remote, baseUrl + prefix)|, 1, |subs|
  {
    if |subs| == 0 then Some([])
    else
      LongerKeysShrink(remote, baseUrl + prefix, baseUrl + (prefix + subs[0]));
      match Visit(remote, baseUrl, prefix + subs[0])
      case None => None
      case Some(first) =>
        match VisitAll(remote, baseUrl, prefix, subs[1..])
        case None => None
        case Some(rest) => Some(first + rest)
  }

  /** The services listed by the folders `paths`, folder after folder. */
  function Gather(remote: Remote, baseUrl: string, paths: seq<string>): seq<Service>
  {
    if |paths| == 0 then [] else OwnServices(remote, baseUrl + paths[0]) + Gather(remote, baseUrl, paths[1..])
  }

  /** The number of services the folders `paths` list. */
  function ServiceCount(remote: Remote, baseUrl: string, paths: seq<string>): nat
  {
    if |paths| == 0 then 0 else |OwnServices(remote, baseUrl + paths[0])| + ServiceCount(remote, baseUrl, paths[1..])
  }

  lemma {:induction false} GatherAppend(remote: Remote, baseUrl: string, a: seq<string>, b: seq<string>)
    ensures Gather(remote, baseUrl, a + b) == Gather(remote, baseUrl, a) + Gather(remote, baseUrl, b)
  {
    if |a| == 0 {
      assert a + b == b;
    } else {
      assert (a + b)[1..] == a[1..] + b;
      GatherAppend(remote, baseUrl, a[1..], b);
    }
  }

  lemma {:induction false} GatherLength(remote: Remote, baseUrl: string, paths: seq<string>)
    ensures |Gather(remote, baseUrl, paths)| == ServiceCount(remote, baseUrl, paths)
  {
    if |paths| > 0 {
      GatherLength(remote, baseUrl, paths[1..]);
    }
  }

  /** Collecting services folder by folder is the same as visiting the folders in pre-order
      and gathering each one's own services; both fail together. */
  lemma {:induction false} InFolderIsVisitGather(remote: Remote, baseUrl: string, folder: string)
    ensures InFolder(remote, baseUrl, folder).Some? <==> Visit(remote, baseUrl, folder).Some?
    ensures InFolder(remote, baseUrl, folder).Some? ==>
            InFolder(remote, baseUrl, folder).value == Gather(remote, baseUrl, Visit(remote, baseUrl, folder).value)
    decreases |LongerKeys(remote, baseUrl + folder)|, 0, 0
  {
    var url := baseUrl + folder;
    if url in remote {
      LongerKeysShrink(remote, url, baseUrl + (folder + "/"));
      var subs := SubFolders(remote, url);
      InFoldersIsVisitGather(remote, baseUrl, folder + "/", subs);
      var visited := VisitAll(remote, baseUrl, folder + "/", subs);
      if visited.Some? {
        assert ([folder] + visited.value)[1..] == visited.value;
      }
    }
  }

  lemma {:induction false} InFoldersIsVisitGather(remote: Remote, baseUrl: string, prefix: string, subs: seq<string>)
    ensures InFolders(remote, baseUrl, prefix, subs).Some? <==> VisitAll(remote, baseUrl, prefix, subs).Some?
    ensures InFolders(remote, baseUrl, prefix, subs).Some? ==>
            InFolders(remote, baseUrl, prefix, subs).value == Gather(remote, baseUrl, VisitAll(remote, baseUrl, prefix, subs).value)
    decreases |LongerKeys(remote, baseUrl + prefix)|, 1, |subs|
  {
    if |subs| > 0 {
      LongerKeysShrink(remote, baseUrl + prefix, baseUrl + (prefix + subs[0]));
      InFolderIsVisitGather(remote, baseUrl, prefix + subs[0]);
      InFoldersIsVisitGather(remote, baseUrl, prefix, subs[1..]);
      var first := Visit(remote, baseUrl, prefix + subs[0]);
      var rest := VisitAll(remote, baseUrl, prefix, subs[1..]);
      if first.Some? && rest.Some? {
        GatherAppend(remote, baseUrl, first.value, rest.value);
      }
    }
  }

  /** The enumeration under `folder` returns exactly as many services as the visited folders
      list, starting with `folder`'s own. */
  lemma InFolderCount(remote: Remote, baseUrl: string, folder: string)
    requires InFolder(remote, baseUrl, folder).Some?
    ensures Visit(remote, baseUrl, folder).Some?
    ensures Visit(remote, baseUrl, folder).value[0] == folder
    ensures |InFolder(remote, baseUrl, folder).value| == ServiceCount(remote, baseUrl, Visit(remote, baseUrl, folder).value)
  {
    InFolderIsVisitGather(remote, baseUrl, folder);
    GatherLength(remote, baseUrl, Visit(remote, baseUrl, folder).value);
  }

  /** The whole enumeration gathers the root, then the folders visited under each top-level
      folder in pre-order; its length is the number of services they list. */
  lemma ListServicesCount(remote: Remote, baseUrl: string)
    requires ListServices(remote, baseUrl).Some?
    ensures VisitAll(remote, baseUrl, "", SubFolders(remote, baseUrl)).Some?
    ensures var visited := [""] + VisitAll(remote, baseUrl, "", SubFolders(remote, baseUrl)).value;
            && ListServices(remote, baseUrl).value == Gather(remote, baseUrl, visited)
            && |ListServices(remote, baseUrl).value| == ServiceCount(remote, baseUrl, visited)
  {
    var tops := SubFolders(remote, baseUrl);
    InFoldersIsVisitGather(remote, baseUrl, "", tops);
    var visited := [""] + VisitAll(remote, baseUrl, "", tops).value;
    assert baseUrl + "" == baseUrl;
    assert visited[1..] == VisitAll(remote, baseUrl, "", tops).value;
    GatherLength(remote, baseUrl, visited);
  }
}

=== FILE: strings.dfy ===
/**
 * The JavaScript string operations the connector relies on, over `seq<char>`:
 * `split` on one separator character and its inverse `join`, `indexOf` (first
 * occurrence), `lastIndexOf`, the clamping `substring`, the `\s` regex class and
 * the decimal rendering of integer numbers.
 */
module Strings {

  /** The characters matched by the `\s` class of a JavaScript regular expression:
      the ECMAScript WhiteSpace and LineTerminator code points. */
  predicate IsWhitespace(c: char)
  {
    || c == '\t' || c == '\n' || c == '\U{B}' || c == '\U{C}' || c == '\r' || c == ' '
    || c == '\U{A0}' || c == '\U{1680}' || ('\U{2000}' <= c <= '\U{200A}')
    || c == '\U{2028}' || c == '\U{2029}' || c == '\U{202F}' || c == '\U{205F}'
    || c == '\U{3000}' || c == '\U{FEFF}'
  }

  // ---------------------------------------------------------------------------
  // split / join

  /** `s.split(sep)`: the maximal runs of characters between separators, always at
      least one (the empty string splits into one empty part). */
  function Split(s: string, sep: char): (parts: seq<string>)
    ensures |parts| >= 1
    ensures forall i :: 0 <= i < |parts| ==> sep !in parts[i]
  {
    if |s| == 0 then [""]
    else
      var rest := Split(s[1..], sep);
      if s[0] == sep then [""] + rest
      else [[s[0]] + rest[0]] + rest[1..]
  }

  /** `parts.join(sep)`. */
  function Join(parts: seq<string>, sep: char): string
  {
    if |parts| == 0 then ""
    else if |parts| == 1 then parts[0]
    else parts[0] + [sep] + Join(parts[1..], sep)
  }

  /** Joining the parts of a split gives back the original string. */
  lemma {:induction false} JoinSplit(s: string, sep: char)
    ensures Join(Split(s, sep), sep) == s
  {
    if |s| > 0 {
      var rest := Split(s[1..], sep);
      JoinSplit(s[1..], sep);
      if s[0] == sep {
        assert Split(s, sep) == [""] + rest;
        assert Join([""] + rest, sep) == "" + [sep] + Join(rest, sep);
      } else {
        var parts := [[s[0]] + rest[0]] + rest[1..];
        assert Split(s, sep) == parts;
        if |rest| == 1 {
          assert Join(parts, sep) == [s[0]] + rest[0];
        } else {
          assert parts[1..] == rest[1..];
          assert Join(parts, sep) == [s[0]] + rest[0] + [sep] + Join(rest[1..], sep);
        }
      }
    }
  }

  lemma {:induction false} SplitWithoutSeparator(a: string, sep: char)
    requires sep !in a
    ensures Split(a, sep) == [a]
  {
    if |a| > 0 {
      SplitWithoutSeparator(a[1..], sep);
      assert [a[0]] + a[1..] == a;
    }
  }

  lemma {:induction false} SplitAfterSeparator(a: string, b: string, sep: char)
    requires sep !in a
    ensures Split(a + [sep] + b, sep) == [a] + Split(b, sep)
  {
    var s := a + [sep] + b;
    if |a| == 0 {
      assert s[1..] == b;
    } else {
      assert s[1..] == a[1..] + [sep] + b;
      SplitAfterSeparator(a[1..], b, sep);
      assert [a[0]] + a[1..] == a;
    }
  }

  /** Splitting a join of separator-free parts gives back the parts. */
  lemma {:induction false} SplitJoin(parts: seq<string>, sep: char)
    requires |parts| >= 1
    requires forall i :: 0 <= i < |parts| ==> sep !in parts[i]
    ensures Split(Join(parts, sep), sep) == parts
  {
    if |parts| == 1 {
      SplitWithoutSeparator(parts[0], sep);
    } else {
      SplitJoin(parts[1..], sep);
      SplitAfterSeparator(parts[0], Join(parts[1..], sep), sep);
      assert [parts[0]] + parts[1..] == parts;
    }
  }

  // ---------------------------------------------------------------------------
  // indexOf / lastIndexOf / substring

  /** `pat` occurs in `s` starting at index `k`. */
  predicate OccursAt(s: string, pat: string, k: int)
  {
    0 <= k && k + |pat| <= |s| && s[k..k + |pat|] == pat
  }

  /** `s.indexOf(pat, from)`: the first index at or after `from` where `pat` occurs, or -1. */
  function IndexOfFrom(s: string, pat: string, from: nat): (k: int)
    ensures k == -1 || (from <= k && OccursAt(s, pat, k))
    ensures forall j :: from <= j && (k == -1 || j < k) ==> !OccursAt(s, pat, j)
    decreases |s| - from
  {
    if from + |pat| > |s| then -1
    else if s[from..from + |pat|] == pat then from
    else IndexOfFrom(s, pat, from + 1)
  }

  /** `s.indexOf(pat)`: the first index where `pat` occurs, or -1 when it does not occur. */
  function IndexOf(s: string, pat: string): (k: int)
    ensures k == -1 || OccursAt(s, pat, k)
    ensures forall j :: 0 <= j && (k == -1 || j < k) ==> !OccursAt(s, pat, j)
  {
    IndexOfFrom(s, pat, 0)
  }

  /** `s.lastIndexOf(c)`: the last index holding `c`, or -1. */
  function LastIndexOf(s: string, c: char): (k: int)
    ensures -1 <= k < |s|
    ensures k >= 0 ==> s[k] == c
    ensures forall j :: k < j < |s| ==> s[j] != c
  {
    if |s| == 0 then -1
    else if s[|s| - 1] == c then |s| - 1
    else LastIndexOf(s[..|s| - 1], c)
  }

  function Clamp(x: int, n: nat): nat
  {
    if x < 0 then 0 else if x > n then n else x
  }

  /** `s.substring(start, end)`: both bounds are clamped into `[0, |s|]` and swapped when
      `start > end`. */
  function Substring(s: string, start: int, end: int): (r: string)
    ensures 0 <= start <= end <= |s| ==> r == s[start..end]
    ensures 0 <= end <= start <= |s| ==> r == s[end..start]
    ensures start <= 0 && |s| <= end ==> r == s
    ensures |r| <= |s|
  {
    var a := Clamp(start, |s|);
    var b := Clamp(end, |s|);
    if a <= b then s[a..b] else s[b..a]
  }

  /** `s.substring(start)`: the suffix from `start`, empty when `start` is past the end. */
  function SubstringFrom(s: string, start: int): (r: string)
    ensures 0 <= start <= |s| ==> r == s[start..]
    ensures |s| <= start ==> r == ""
    ensures start <= 0 ==> r == s
  {
    Substring(s, start, |s|)
  }

  // ---------------------------------------------------------------------------
  // Number to string

  predicate IsDigit(c: char)
  {
    '0' <= c <= '9'
  }

  function DigitChar(d: nat): char
    requires d < 10
  {
    ('0' as int + d) as char
  }

  /** The decimal digits of a natural number, most significant first, no leading zero. */
  function NatToString(n: nat): (r: string)
    ensures |r| >= 1
    ensures forall i :: 0 <= i < |r| ==> IsDigit(r[i])
    ensures |r| > 1 ==> r[0] != '0'
  {
    if n < 10 then [DigitChar(n)]
    else NatToString(n / 10) + [DigitChar(n % 10)]
  }

  /** The value of a string of decimal digits. */
  function ParseDigits(s: string): nat
  {
    if |s| == 0 then 0
    else ParseDigits(s[..|s| - 1]) * 10 + (if IsDigit(s[|s| - 1]) then s[|s| - 1] as int - '0' as int else 0)
  }

  /** Reading back the rendering of a natural number gives the number. */
  lemma {:induction false} NatToStringRoundTrip(n: nat)
    ensures ParseDigits(NatToString(n)) == n
  {
    if n >= 10 {
      var r := NatToString(n);
      assert r[..|r| - 1] == NatToString(n / 10);
      NatToStringRoundTrip(n / 10);
    }
  }

  /** JavaScript's rendering of an integer-valued Number (`String(n)`, `${n}`). */
  function IntToString(n: int): (r: string)
    ensures |r| >= 1
    ensures n < 0 <==> r[0] == '-'
  {
    if n < 0 then "-" + NatToString(-n) else NatToString(n)
  }

  /** Different integers render differently. */
  lemma IntToStringInjective(a: int, b: int)
    requires IntToString(a) == IntToString(b)
    ensures a == b
  {
    var ra, rb := IntToString(a), IntToString(b);
    assert (a < 0) == (ra[0] == '-') == (rb[0] == '-') == (b < 0);
    if a < 0 {
      assert ra == "-" + NatToString(-a) && rb == "-" + NatToString(-b);
      assert NatToString(-a) == ra[1..] == rb[1..] == NatToString(-b);
      NatToStringRoundTrip(-a);
      NatToStringRoundTrip(-b);
    } else {
      assert NatToString(a) == ra == rb == NatToString(b);
      NatToStringRoundTrip(a);
      NatToStringRoundTrip(b);
    }
  }
}
